=== FILE: README.md ===
# music-bookmarks-dl in Dafny

A model of the deterministic core of music-bookmarks-dl. The program reads a
browser's bookmark folder of music links, downloads each link's audio,
converts it to MP3, looks the song up in a music catalogue and writes the
catalogue's metadata into the file's tags. The repository has two variants of
this pipeline: the script `music_downloader.py` and the class-based `main.py`.
Both are modelled where they hold logic of their own:

- `levenshtein.dfy` (`Levenshtein`): `levenshtein_dist_percent`. The
  dynamic-programming table the source fills is proved equal to a recursive
  edit distance. The percentage is an exact `real`, with the division by zero
  for two empty strings kept as an error.
- `spotify_match.dfy` (`SpotifyMatch`): the selection, default and year logic
  of `fetch_spotify_metadata`. It is written twice: as the code does it (the
  candidate of LOWEST similarity wins), and as the docstring at
  music_downloader.py:57 describes it ("the best match": the most similar
  candidate wins).
- `bookmarks.dfy` (`Bookmarks`): the bookmark document as a JSON tree,
  `BookmarkParser.get_tracks` and `_create_track`, and the fixed `" - "`
  artist/title split of the script.
- `metadata_fetcher.dfy` (`MetadataFetcher`): the first-hit extraction of
  `SpotifyMetadataFetcher.get_metadata`.
- `progress.dfy` (`Progress`): the decision made by
  `AudioDownloader._progress_hook`.
- `converter.dfy` (`Converter`): the paths of `AudioConverter.convert_to_mp3`
  and its effect on the set of files in the music directory.
- `processor.dfy` (`Processor`): `MusicProcessor.process_tracks` as a
  sequential state machine. The download, encoder, catalogue search and tag
  writer are abstract per-track outcomes.
- `pystr.dfy` (`PyStr`): the Python string and sequence primitives the code
  relies on. These are `xs[i]` with negative indices, `s[:n]`, `str.split`,
  `str.strip()` and `str.lower()`.
- `wrappers.dfy` (`Wrappers`): `Option`, `Result`, and the Python exceptions
  the model can raise (`PyError`).
- `catalog.dfy` (`Catalog`): the catalogue's search items, as both variants
  read them.

A Python exception is an `Err` carrying the exception's class. Every
operation that can raise returns a `Result`. The bookmark document is an
arbitrary JSON value, so every missing key, wrong type or out-of-range index
in it raises where the source would. Catalogue records and download events
are taken as well shaped even though the source does not check them (see
`SpotifyMatch.FetchMetadata` and `Progress.ProgressHook` under "Left out").

The model follows the code where a more forgiving behaviour would be easy to
assume:

- Two empty artist names make the score divide by zero; they do not count as
  identical.
- The candidate's artist name is only lower-cased, not trimmed.
- The candidate with the lowest score is selected, not the best match the
  docstring at music_downloader.py:57 names.
- Once the encoder has run, `convert_to_mp3` removes its input whatever the
  encoder did, not only after a successful conversion.
- A bookmark whose name does not split into enough parts raises and ends
  `get_tracks`; the entry is not skipped.
- A failure in conversion, the catalogue search, metadata extraction or tag
  writing is not caught by `process_tracks`, so it ends the whole run; the
  track is not skipped.

## Model

| member | source | states |
|---|---|---|
| `Levenshtein.DistanceTable` | music_downloader.py:56-81 | The table fill, with its base row and column and the min of deletion, insertion and substitution, returns exactly the recursive edit distance `Dist(a, b)` |
| `Levenshtein.DistToEmpty` | music_downloader.py:66-70 | The distance between a string and the empty string, either way round, is the string's length |
| `Levenshtein.PrefixDistLowerBound` | music_downloader.py:73-78 | Every table cell is at least the difference of its prefix lengths |
| `Levenshtein.PrefixDistUpperBound` | music_downloader.py:73-78 | Every table cell is at most the longer prefix length |
| `Levenshtein.PrefixDistZeroEqual` | music_downloader.py:73-78 | A cell holding 0 means the two prefixes are equal |
| `Levenshtein.PrefixDistEqualZero` | music_downloader.py:73-78 | Equal prefixes give a cell holding 0 |
| `Levenshtein.PrefixDistZero` | music_downloader.py:73-78 | A cell is 0 if and only if its prefixes are equal |
| `Levenshtein.DistZeroIsEqual` | music_downloader.py:73-81 | The distance is 0 if and only if the strings are equal |
| `Levenshtein.DistSelf` | music_downloader.py:73-81 | A string is at distance 0 from itself |
| `Levenshtein.PrefixDistSymmetric` | music_downloader.py:73-78 | Swapping the strings transposes the table |
| `Levenshtein.DistSymmetric` | music_downloader.py:73-81 | The distance does not depend on the order of the strings |
| `Levenshtein.Similarity` | music_downloader.py:81-87 | The percentage raises ZeroDivisionError exactly when both strings are empty; otherwise it lies in [0, 100] and is 100 exactly for equal strings |
| `Levenshtein.SimilarityOfDist` | music_downloader.py:81-85 | Off the two empty strings, the score times the longer length is 100 times what the edit distance leaves of that length |
| `Levenshtein.SimilarityOrder` | music_downloader.py:81-85 | One pair of strings scores at most another exactly when its distance is at least as large a share of its longer length: `Dist(c, d) * max(a, b) <= Dist(a, b) * max(c, d)` |
| `Levenshtein.PercentBounds` | music_downloader.py:84-85 | `(1 - d/max_len) * 100` lies in [0, 100] when `d <= max_len`, and is 100 exactly when `d` is 0 |
| `Levenshtein.SimilaritySymmetric` | music_downloader.py:56-87 | The score is symmetric in its two strings |
| `Levenshtein.SimilarityToEmpty` | music_downloader.py:66-85 | A non-empty string scored against the empty string, either way round, scores 0 |
| `PyStr.PyIndex` | main.py:73-74 | A Python index is valid exactly in `[-n, n)`, and then denotes `i` or `n + i` |
| `PyStr.At` | main.py:73-74 | `xs[i]` raises IndexError exactly outside `[-len, len)`, and otherwise yields the element at the position `PyIndex` gives, `i` or `len + i` |
| `PyStr.Take` | main.py:97 | `s[:n]` is a prefix of `s` of length `min(len(s), n)` |
| `PyStr.Find` | main.py:69 | The separator's position found is an occurrence, and no earlier position is one; none is found exactly when the string does not contain it |
| `PyStr.SplitParts` | main.py:69 | Splitting on a non-empty separator gives at least one part, no part contains the separator, joining the parts with it gives back the string, every cut is at the leftmost occurrence left (no occurrence starts inside a part a separator follows, even running on into that separator), and there is one part exactly when the string does not contain it |
| `PyStr.Split` | main.py:69 | `str.split` raises ValueError exactly for an empty separator; otherwise the parts re-join to the string, hold no separator, are cut at leftmost occurrences, and are two or more exactly when the string contains the separator |
| `PyStr.FirstPart` | music_downloader.py:156 | Part 0 of a split is the whole string exactly when the string lacks the separator; otherwise it is the text before the separator's leftmost occurrence |
| `PyStr.JoinHead` | music_downloader.py:245-246 | With two or more parts, part 0, the separator and part 1 are a prefix of the split string |
| `PyStr.Lower` | music_downloader.py:142-143 | Lower-casing keeps the length, leaves every character that is not upper-case unchanged, leaves no upper-case character, and turns each upper-case letter into the character 32 code points above it (its lower-case form in ASCII and Latin-1) |
| `PyStr.LowerIdempotent` | music_downloader.py:142-143 | Lower-casing twice is lower-casing once |
| `PyStr.Strip` | music_downloader.py:143 | `strip()` removes exactly the leading and trailing whitespace: the result is a slice with only whitespace outside it, and it neither starts nor ends with whitespace |
| `PyStr.StripIdempotent` | music_downloader.py:143 | Stripping twice is stripping once |
| `PyStr.StripPadded` | music_downloader.py:143 | A string that neither starts nor ends with whitespace is returned by `strip()` when padded with a space on each side |
| `SpotifyMatch.TargetPaddingIgnored` | music_downloader.py:142-143 | The requested artist is stripped before scoring, so surrounding whitespace in it never changes a score |
| `SpotifyMatch.PaddedCandidateLoses` | music_downloader.py:142-143 | A candidate's artist name is not stripped: " ab" against the request "ab" scores below 100 |
| `SpotifyMatch.PaddedRequestMatches` | music_downloader.py:142-143 | The request " ab " matches the candidate "ab" with 100 |
| `SpotifyMatch.Defaults` | music_downloader.py:127-133 | The metadata before any catalogue data keeps the requested title and artist and has album "Unknown", year 1900 and no cover |
| `SpotifyMatch.Target` | music_downloader.py:143 | The request as compared is the stripped request with each ASCII or Latin-1 upper-case letter lowered (code point + 32) and every other character kept; it has no upper-case letter and no whitespace at either end |
| `SpotifyMatch.ArtistScore` | music_downloader.py:142-143 | A candidate's score raises IndexError exactly when it has no artist and ZeroDivisionError exactly when its name and the normalised request are both empty; otherwise it is the percentage of the lower-cased name against the normalised request, in [0, 100] and 100 exactly when the two are equal |
| `SpotifyMatch.Scores` | music_downloader.py:139-143 | All candidates are scored in order; scoring fails exactly when some candidate fails, with the exception of the first candidate that fails |
| `SpotifyMatch.FirstMinIndex` | music_downloader.py:146 | `min(range(n), key=...)` raises ValueError on an empty range; otherwise it yields the first position of the smallest value |
| `SpotifyMatch.SelectAsWritten` | music_downloader.py:139-147 | The selected index is the first candidate of least similarity; selection raises exactly when there are no candidates or one cannot be scored |
| `SpotifyMatch.ReleaseYear` | music_downloader.py:152-156 | With precision "year" the whole release date is kept; otherwise the text before the first '-' |
| `SpotifyMatch.ReleaseYearOfDate` | music_downloader.py:155-156 | For a finer precision, the date `year + "-" + rest` gives exactly `year` when `year` holds no '-' |
| `SpotifyMatch.ReleaseYearOfDay` | music_downloader.py:155-156 | "1999-04-12" at day precision gives the year "1999" |
| `SpotifyMatch.FetchMetadata` | music_downloader.py:123-158 | Without a response the defaults are returned (album "Unknown", year 1900, no cover). Otherwise title and artist are kept and album, first cover and year come from the least similar candidate. A failure is an empty list, an unscorable candidate or a selected candidate without images |
| `SpotifyMatch.ExampleScores` | music_downloader.py:142-143 | For the request "ab", candidate "AB" scores 100 and candidate "cd" less |
| `SpotifyMatch.ScoreOfExactMatch` | music_downloader.py:142-143 | A candidate whose lower-cased first artist equals the stripped, lower-cased, non-empty request scores exactly 100 |
| `SpotifyMatch.ScoreOfMismatch` | music_downloader.py:142-143 | A candidate with an artist that differs from the request after normalising scores, and below 100 |
| `SpotifyMatch.PicksWorstMatch` | music_downloader.py:145-151 | As written, with an exact match ranked first and any mismatching second candidate that has a cover, the second candidate's album is chosen |
| `SpotifyMatch.PicksWorstMatchExample` | music_downloader.py:145-151 | As written, the unrelated candidate "cd" is selected over the exact match "AB" for the request "ab" |
| `SpotifyMatch.EmptyItemsRaise` | music_downloader.py:138-146 | As written, a response with an empty item list raises ValueError |
| `SpotifyMatch.NoImagesRaise` | music_downloader.py:151 | As written, a selected candidate without images raises IndexError |
| `SpotifyMatch.EmptyArtistsRaise` | music_downloader.py:142-143 | As written, a blank request against an empty candidate artist raises ZeroDivisionError |
| `SpotifyMatch.SimilarityIntended` | music_downloader.py:84-85 | The intended score agrees with the percentage whenever a string is non-empty, lies in [0, 100] and is 100 exactly for equal strings, the two empty strings included |
| `SpotifyMatch.ScoresIntended` | music_downloader.py:139-143 | The intended scores fail exactly when a candidate has no artist |
| `SpotifyMatch.FirstMaxIndex` | music_downloader.py:145-146 | The first position of the largest value, and none for an empty sequence |
| `SpotifyMatch.SelectBest` | music_downloader.py:145-147 | The intended selection is the first most similar candidate, or none without candidates |
| `SpotifyMatch.FirstCover` | main.py:98 | The cover is the first image when there is one, and absent otherwise |
| `SpotifyMatch.FetchMetadataIntended` | music_downloader.py:123-158 | With best-match selection: defaults for no or empty responses, a failure exactly when a candidate has no artist, otherwise the most similar candidate's album, cover and year |
| `SpotifyMatch.IntendedPrefersExactMatch` | music_downloader.py:145-147 | A candidate whose artist matches the request exactly is selected, or an earlier exact match is |
| `SpotifyMatch.IntendedPicksBestMatch` | music_downloader.py:145-150 | With best-match selection, a first candidate whose artist matches the request exactly gives the album, whatever the second candidate is |
| `SpotifyMatch.IntendedPicksBestMatchExample` | music_downloader.py:145-150 | With best-match selection the exact match "AB" of the example is selected over "cd" |
| `SpotifyMatch.IntendedSelects` | music_downloader.py:147-156 | The intended metadata takes album, year and optional cover from the candidate the selection chooses, keeping title and artist |
| `SpotifyMatch.IntendedHandlesEmptyCases` | music_downloader.py:138-151 | With the intended rules, an empty response, an imageless candidate and two empty names do not raise |
| `Bookmarks.Get` | main.py:65 | `j[key]` succeeds exactly on an object holding the key; otherwise KeyError on an object and TypeError on anything else |
| `Bookmarks.Index` | main.py:65 | `j[i]` succeeds exactly on a list or string with `i` in range, and then gives the element (or one-character string) at the Python index; out of range is IndexError, an object is KeyError, anything else TypeError |
| `Bookmarks.Entries` | main.py:66 | Iterating a list visits its items; besides a list, only an empty string or an empty object gets past the loop body's `bookmark["name"]` (with no entries), and every other value raises TypeError |
| `Bookmarks.Folders` | main.py:65 | `roots.bookmark_bar.children` is read exactly when each level is an object holding the next key, and is then that value; otherwise KeyError or TypeError |
| `Bookmarks.CreateTrack` | main.py:68-75 | A track is made exactly when the bookmark is an object with a string "name" and a "url", the separator is non-empty and the name splits into enough parts for both positions. Otherwise the first failing step raises: TypeError, KeyError, AttributeError, ValueError, KeyError for "url", IndexError. The track copies url and name verbatim, and title and artist are the split parts at the pattern's Python indices |
| `Wrappers.MapAll` | main.py:66 | A comprehension whose element function may raise: on success one result per element, each the function of that element, in order; otherwise the exception of the first element that raises, all earlier elements having succeeded |
| `Bookmarks.CreateTracks` | main.py:66 | One track per entry, in order; the list fails exactly when some entry fails, with the first failing entry's exception |
| `Bookmarks.GetTracks` | main.py:62-66 | The tracks are read exactly when the folder path exists, the position is in range, the folder's children can be iterated and every child makes a track; the result is then one track per child, in order. Otherwise a missing or mistyped path raises its error; a bookmark-bar "children" that is not a list raises what `[position]` raises on it (KeyError on an object, IndexError on a string out of range), else TypeError at `["children"]`; an out-of-range position in a list raises IndexError; and a failing child raises the exception of the first failing child |
| `Bookmarks.ArtistAndTitle` | music_downloader.py:245-246 | The split raises IndexError exactly when the name lacks " - ". Otherwise the artist is the text before the leftmost " - ", the title is the first part of what follows it, neither holds the separator, and `artist + " - " + title` starts the name |
| `Bookmarks.ArtistAndTitleParts` | music_downloader.py:245-246 | For a name holding " - ", part 0 ends at the leftmost occurrence and part 1 is the first part of the split of the rest |
| `Bookmarks.SplitAroundSeparator` | music_downloader.py:245-246 | `artist + " - " + title` splits back into exactly `[artist, title]` when neither holds the separator and the artist does not end in '-' |
| `Bookmarks.ArtistAndTitleRoundTrip` | music_downloader.py:245-246 | Joining an artist and title with " - " and splitting the name again gives them back |
| `Bookmarks.CreateTrackDefaultPattern` | main.py:68-75 | With title position 1, artist position 0 and separator " - ", the bookmark `artist - title` becomes the track of that artist and title |
| `Bookmarks.CreateTrackExample` | main.py:68-75 | "Daft Punk - One More Time" becomes the track with artist "Daft Punk" and title "One More Time" |
| `MetadataFetcher.GetMetadata` | main.py:87-99 | No metadata exactly for a falsy response or no items. Otherwise item 0 gives title, album and first artist, a year of at most 4 leading characters of the release date, and the first image as cover if any. A first item without artists raises IndexError |
| `MetadataFetcher.OnlyFirstItemMatters` | main.py:92-99 | Only item 0 is read: two responses with the same first item give the same result |
| `Progress.Total` | main.py:132 | The total is `total_bytes` when truthy, else `total_bytes_estimate` if present, else 0 |
| `Progress.ProgressHook` | main.py:128-135 | Other statuses do nothing. "downloading" always ends with the description update and reports completion first exactly when the total is positive. A total of `None` raises TypeError |
| `Progress.CompletionHasPositiveTotal` | main.py:132-134 | Every completion update carries a positive total taken from the exact size or the estimate |
| `Progress.ExactSizePreferred` | main.py:132-135 | A positive exact size gives exactly a completion update with that size, then the description |
| `Converter.ConversionPaths` | main.py:142-144 | Input and output are `dir/name.ext` and `dir/name.mp3`: the directory, a slash, the track name and a dot, then the extension or "mp3"; they coincide exactly when the extension is "mp3" |
| `Converter.ConvertToMp3` | main.py:142-154 | An encoder that cannot be launched, or a missing input, raises FileNotFoundError (the launch failure before anything is removed). Otherwise the input is gone afterwards whatever the encoder did, a successful encoding leaves the output, and no other file changes |
| `Converter.Mp3InputIsLost` | main.py:143-152 | An input already named `.mp3` is its own output and, once a launched encoder has run, is removed, leaving no file at the output path |
| `Processor.WriteTags` | main.py:159-173 | Tag writing succeeds exactly when the MP3 file exists and the writer reports success; otherwise it raises |
| `Processor.Downloaded` | main.py:199 | The walrus test on the download's result: a non-empty extension was returned (no contract: a predicate) |
| `Processor.Metadata` | main.py:87-99 | The metadata lookup raises what the search call raised, and otherwise gives what is extracted from the response |
| `Processor.MetadataFound` | main.py:207 | `get_metadata` returns metadata exactly when the search call returned, its response is truthy with at least one item, and the first item has an artist |
| `Processor.ProcessTrack` | main.py:195-214 | A failed download changes nothing and records no output. A downloaded track raises exactly when its conversion raises, its metadata lookup raises, or found metadata cannot be written, and the first of these gives the exception. On success the files are those the conversion leaves, the output is the MP3 path, and tags are written exactly when metadata is found |
| `Processor.FailedEncodingAbortsTagging` | main.py:203-208 | When the encoder fails and no MP3 was there before, found metadata makes tag writing raise |
| `Processor.ProcessTracks` | main.py:185-217 | The tracks are processed in order, each on the files the one before it left, and the overall counter is advanced once per completed track. A finished run processed every track; an aborted run stopped at a track that raised on the files then present, with that exception |
| `Processor.NoLongerRun` | main.py:195-214 | No run agreeing with the same outcomes gets past a track at which another such run stopped |
| `Processor.RunIsDetermined` | main.py:195-214 | The outcomes determine the run: whether it finishes or aborts, where, with which exception, and the files and reports it leaves |
| `Processor.FirstTrackRaisingAborts` | main.py:195-208 | A first track that raises ends the run at once, with no report and the directory untouched |
| `Processor.Run` | main.py:185-217 | The run fails before any track exactly when reading the tracks fails; otherwise it processes the parsed tracks as above |

## Left out

- Downloading (yt_dlp), the ffmpeg subprocess, the catalogue search call (spotipy), cover fetching (requests/urllib) and tag I/O (mutagen/eyed3) are foreign libraries doing network and file I/O. In `Processor` they appear only as the per-track outcomes in `StageOutcomes`.
- The search query strings (main.py:88, music_downloader.py:136) are inputs to the search call, which is not modelled.
- Progress-bar rendering and console printing (rich, tqdm) are UI. The per-track sub-task that `process_tracks` adds and removes only feeds the display.
- Configuration and `main()` of main.py (main.py:220-238) are environment plumbing.
- The script's `main` loop, `retrieve_musics_from_bookmarks`, `download_music`, `download_cover_to_hdd` and `add_metadata_to_music` are I/O. Only the name split at music_downloader.py:245-246 is modelled. The folder navigation of `retrieve_musics_from_bookmarks` is the same as that of `get_tracks`.
- Reading the bookmark file as JSON (main.py:63-64) is file I/O. The document is an abstract `Json` value, and JSON numbers are integers only.
- `Levenshtein.Similarity`: the percentage is an exact real, not a float. Floating-point rounding of `distance / max_len` is not modelled.
- `PyStr.Lower`: lower-cases ASCII and Latin-1 letters only, not the rest of Unicode's case mapping.
- `SpotifyMatch.FetchMetadata`: the catalogue response is taken as well shaped, because `Catalog` records always have their fields. A response missing "tracks", "items", "album", "name", "images" or "release_date" would raise KeyError, which is not modelled.
- `Progress.ProgressHook`: a download event always carries a "status" entry; the KeyError that `d["status"]` (main.py:130) would raise on an event without one is not modelled.
- `MetadataFetcher.GetMetadata`: as for `FetchMetadata`, missing catalogue fields (KeyError) are not modelled. A present but falsy response (an empty dictionary) is folded into `None`.
- `Processor.ProcessTracks`: the downloader's own exceptions are caught in the source and reach the loop as `None`, so they appear only as a failed download. Loading, tagging and saving errors of the tag writer are one boolean. An aborted run records the directory as it was before the failing track; the file the downloader wrote for that track is not added.
- `Processor.ProcessTrack`: every exception of the catalogue client is one `SearchError`.
- `SpotifyMatch.FetchMetadata`: the script's own search call (music_downloader.py:136) is not modelled, so an exception it raises is not either; the function starts from the response.

## Findings

| source | as written | input that shows it | evidently intended | confidence | as-written member | corrected member |
|---|---|---|---|---|---|---|
| music_downloader.py:145-147 | `min` over the similarity percentages selects the candidate whose artist is LEAST similar (the comment at line 145 says "highest distance": least similar means the highest distance relative to the longer name, `Levenshtein.SimilarityOrder`) | request "ab", candidates with artists "AB" then "cd": the "cd" album is chosen | the most similar candidate: the percentage exists "to fetch the best match" (docstring at line 57), and an exact artist match should never lose | medium, not executed | `SpotifyMatch.PicksWorstMatchExample` | `SpotifyMatch.IntendedPicksBestMatchExample` |
| music_downloader.py:138-147 | a truthy response with an empty item list reaches `min` over an empty range | `Some([])` raises ValueError | no candidates keeps the default metadata, like a falsy response | medium, not executed | `SpotifyMatch.EmptyItemsRaise` | `SpotifyMatch.IntendedHandlesEmptyCases` |
| music_downloader.py:151 | `images[0]` is read without checking that the album has images | a selected candidate with `images = []` raises IndexError | no cover, as `get_metadata` does at main.py:98 | medium, not executed | `SpotifyMatch.NoImagesRaise` | `SpotifyMatch.FetchMetadataIntended` |
| music_downloader.py:84-85 | two empty strings make `max_len` 0 and the percentage divides by zero | request " " (stripped to "") against a candidate artist "" | two empty names count as identical, a score of 100 | medium, not executed | `SpotifyMatch.EmptyArtistsRaise` | `SpotifyMatch.SimilarityIntended` |

=== FILE: bookmarks.dfy ===
/** Turning the browser's bookmark document into tracks: `BookmarkParser`
    in main.py (`get_tracks`, `_create_track`) and the fixed " - " split of
    music_downloader.py's `main`.

    The document is an abstract JSON value; every subscript follows Python's
    rules for the value it lands on, so a missing key, a wrong type or an
    out-of-range position raises exactly where the source would.
 */
module Bookmarks {
  import opened Wrappers
  import opened PyStr

  /** A decoded JSON value */
  datatype Json =
    | JNull
    | JBool(b: bool)
    | JNumber(n: int)
    | JString(s: string)
    | JArray(items: seq<Json>)
    | JObject(fields: map<string, Json>)

  /** `Pattern`: which split positions hold the title and the artist, and the
      separator to split on */
  datatype Pattern = Pattern(title: int, artist: int, separator: string)

  /** `Track`. The URL is kept as the JSON value found under "url": the source
      stores it without checking its type. */
  datatype Track = Track(url: Json, name: string, title: string, artist: string)

  /** Python `j[key]` with a string key */
  function Get(j: Json, key: string): (r: Result<Json>)
    ensures r.Ok? <==> j.JObject? && key in j.fields
    ensures r.Ok? ==> r.value == j.fields[key]
    ensures r.Err? ==> r.error == (if j.JObject? then KeyError else TypeError)
  {
    match j
    case JObject(fields) => if key in fields then Ok(fields[key]) else Err(KeyError)
    case _ => Err(TypeError)
  }

  /** Python `j[i]` with an integer index: lists and strings wrap negative
      indices; an object has only string keys, so any integer is missing. */
  function Index(j: Json, i: int): (r: Result<Json>)
    ensures r.Ok? <==>
      || (j.JArray? && -(|j.items| as int) <= i < |j.items|)
      || (j.JString? && -(|j.s| as int) <= i < |j.s|)
    ensures r.Ok? && j.JArray? ==> r.value == j.items[PyIndex(|j.items|, i).value]
    ensures r.Ok? && j.JString? ==> r.value == JString([j.s[PyIndex(|j.s|, i).value]])
    ensures r.Err? ==> r.error == (if j.JArray? || j.JString? then IndexError else if j.JObject? then KeyError else TypeError)
  {
    match j
    case JArray(items) => At(items, i)
    case JString(s) =>
      var c :- At(s, i);
      Ok(JString([c]))
    case JObject(_) => Err(KeyError)
    case _ => Err(TypeError)
  }

  /** The entries a `for` over the folder's "children" visits before the first
      `bookmark["name"]`. Iterating a string yields one-character strings and
      iterating an object yields its keys; subscripting either with "name" is
      a TypeError, so only the empty ones get through. Other values are not
      iterable. */
  function Entries(folder: Json): (r: Result<seq<Json>>)
    ensures folder.JArray? ==> r == Ok(folder.items)
    ensures r.Ok? ==> folder.JArray? || r.value == []
    ensures r.Ok? <==> folder.JArray? || folder == JString("") || folder == JObject(map[])
    ensures r.Err? ==> r.error == TypeError
  {
    match folder
    case JArray(items) => Ok(items)
    case JString(s) => if |s| == 0 then Ok([]) else Err(TypeError)
    case JObject(fields) => if |fields| == 0 then Ok([]) else Err(TypeError)
    case _ => Err(TypeError)
  }

  /** What `_create_track` needs of a bookmark: an object whose "name" is a
      string, a non-empty separator, a "url", and a name that splits into
      enough parts for both of the pattern's positions */
  ghost predicate Creatable(bookmark: Json, pattern: Pattern) {
    && bookmark.JObject? && "name" in bookmark.fields && bookmark.fields["name"].JString?
    && |pattern.separator| > 0 && "url" in bookmark.fields
    && var parts := SplitParts(bookmark.fields["name"].s, pattern.separator);
       PyIndex(|parts|, pattern.title).Some? && PyIndex(|parts|, pattern.artist).Some?
  }

  /** `_create_track`: the name is split on the separator and the pattern's
      positions pick title and artist with Python indexing; url and name are
      copied unchanged. The first failing subscript decides the exception. */
  function CreateTrack(bookmark: Json, pattern: Pattern): (r: Result<Track>)
    ensures r.Ok? <==> Creatable(bookmark, pattern)
    ensures r.Err? ==>
      r.error == (if !bookmark.JObject? then TypeError
        else if "name" !in bookmark.fields then KeyError
        else if !bookmark.fields["name"].JString? then AttributeError
        else if |pattern.separator| == 0 then ValueError
        else if "url" !in bookmark.fields then KeyError
        else IndexError)
    ensures r.Ok? ==>
      && bookmark.JObject? && "name" in bookmark.fields && "url" in bookmark.fields
      && bookmark.fields["name"] == JString(r.value.name)
      && r.value.url == bookmark.fields["url"]
    ensures r.Ok? ==> |pattern.separator| > 0
    ensures r.Ok? ==> var parts := SplitParts(r.value.name, pattern.separator);
      && At(parts, pattern.title) == Ok(r.value.title)
      && At(parts, pattern.artist) == Ok(r.value.artist)
  {
    var nameValue :- Get(bookmark, "name");
    if !nameValue.JString? then Err(AttributeError)
    else
      var parts :- Split(nameValue.s, pattern.separator);
      var url :- Get(bookmark, "url");
      var title :- At(parts, pattern.title);
      var artist :- At(parts, pattern.artist);
      Ok(Track(url, nameValue.s, title, artist))
  }

  /** The list comprehension over the entries: one track per entry, in order;
      the first entry that fails raises and no list is returned. */
  function CreateTracks(entries: seq<Json>, pattern: Pattern): (r: Result<seq<Track>>)
    ensures r.Ok? <==> forall i :: 0 <= i < |entries| ==> CreateTrack(entries[i], pattern).Ok?
    ensures r.Ok? ==> |r.value| == |entries|
    ensures r.Ok? ==> forall i :: 0 <= i < |entries| ==> r.value[i] == CreateTrack(entries[i], pattern).value
    ensures r.Err? ==> exists i ::
      && 0 <= i < |entries| && CreateTrack(entries[i], pattern) == Err(r.error)
      && forall j :: 0 <= j < i ==> CreateTrack(entries[j], pattern).Ok?
  {
    MapAll(entry => CreateTrack(entry, pattern), entries)
  }

  /** `tracks` holds one track per entry, made from that entry, in order */
  ghost predicate TracksOf(entries: seq<Json>, pattern: Pattern, tracks: seq<Track>) {
    && |tracks| == |entries|
    && forall i :: 0 <= i < |entries| ==> CreateTrack(entries[i], pattern) == Ok(tracks[i])
  }

  /** The folder list `roots.bookmark_bar.children` of a document */
  function Folders(document: Json): (r: Result<Json>)
    ensures r.Ok? <==>
      && document.JObject? && "roots" in document.fields
      && document.fields["roots"].JObject? && "bookmark_bar" in document.fields["roots"].fields
      && document.fields["roots"].fields["bookmark_bar"].JObject?
      && "children" in document.fields["roots"].fields["bookmark_bar"].fields
    ensures r.Ok? ==> r.value == document.fields["roots"].fields["bookmark_bar"].fields["children"]
    ensures r.Err? ==> r.error == KeyError || r.error == TypeError
  {
    var roots :- Get(document, "roots");
    var bar :- Get(roots, "bookmark_bar");
    Get(bar, "children")
  }

  /** The folder list is a list and `position` is a Python index into it */
  ghost predicate HasFolder(document: Json, position: int) {
    && Folders(document).Ok? && Folders(document).value.JArray?
    && PyIndex(|Folders(document).value.items|, position).Some?
  }

  /** The folder at `position` */
  ghost function Folder(document: Json, position: int): Json
    requires HasFolder(document, position)
  {
    Folders(document).value.items[PyIndex(|Folders(document).value.items|, position).value]
  }

  /** The folder's "children" can be read and iterated */
  ghost predicate EntriesReadable(document: Json, position: int) {
    && HasFolder(document, position)
    && Get(Folder(document, position), "children").Ok?
    && Entries(Get(Folder(document, position), "children").value).Ok?
  }

  /** The entries a readable folder's loop visits */
  ghost function FolderEntries(document: Json, position: int): seq<Json>
    requires EntriesReadable(document, position)
  {
    Entries(Get(Folder(document, position), "children").value).value
  }

  /** `get_tracks`: the tracks of the folder at `position` of the bookmark
      bar, one per child and in the children's order. It succeeds exactly
      when the folder is there, its children can be iterated and every child
      makes a track; otherwise the first failing subscript or entry raises. */
  function GetTracks(document: Json, position: int, pattern: Pattern): (r: Result<seq<Track>>)
    ensures r.Ok? <==>
      && EntriesReadable(document, position)
      && forall k :: 0 <= k < |FolderEntries(document, position)| ==>
           CreateTrack(FolderEntries(document, position)[k], pattern).Ok?
    ensures r.Ok? ==> TracksOf(FolderEntries(document, position), pattern, r.value)
    ensures Folders(document).Err? ==> r == Err(Folders(document).error)
    ensures Folders(document).Ok? && Folders(document).value.JArray?
            && !(-(|Folders(document).value.items| as int) <= position < |Folders(document).value.items|)
            ==> r == Err(IndexError)
    ensures Folders(document).Ok? && !Folders(document).value.JArray?
            ==> r == Err(if Index(Folders(document).value, position).Err?
                         then Index(Folders(document).value, position).error
                         else TypeError)
    ensures HasFolder(document, position) && Get(Folder(document, position), "children").Err?
            ==> r == Err(Get(Folder(document, position), "children").error)
    ensures HasFolder(document, position) && Get(Folder(document, position), "children").Ok?
            && Entries(Get(Folder(document, position), "children").value).Err?
            ==> r == Err(TypeError)
    ensures EntriesReadable(document, position) && r.Err? ==> exists k ::
      && 0 <= k < |FolderEntries(document, position)|
      && CreateTrack(FolderEntries(document, position)[k], pattern) == Err(r.error)
      && forall j :: 0 <= j < k ==> CreateTrack(FolderEntries(document, position)[j], pattern).Ok?
  {
    var folders :- Folders(document);
    var folder :- Index(folders, position);
    assert !folders.JArray? ==> Get(folder, "children").Err?;
    assert folders.JArray? ==> HasFolder(document, position) && folder == Folder(document, position);
    var children :- Get(folder, "children");
    var entries :- Entries(children);
    assert EntriesReadable(document, position) && entries == FolderEntries(document, position);
    CreateTracks(entries, pattern)
  }

  /** The fixed artist/title split of music_downloader.py: artist is part 0
      and title part 1 of the name split on " - "; a name without the
      separator has no part 1 and raises. */
  function ArtistAndTitle(name: string): (r: Result<(string, string)>)
    ensures r.Err? <==> !Contains(name, " - ")
    ensures r.Err? ==> r.error == IndexError
    ensures r.Ok? ==>
      && !Contains(r.value.0, " - ") && !Contains(r.value.1, " - ")
      && r.value.0 + " - " + r.value.1 <= name
    ensures r.Ok? ==>
      && OccursAt(name, " - ", |r.value.0|)
      && forall j: nat :: j < |r.value.0| ==> !OccursAt(name, " - ", j)
    ensures r.Ok? ==> r.value.1 == SplitParts(name[|r.value.0| + 3..], " - ")[0]
  {
    var parts := SplitParts(name, " - ");
    var artist := parts[0];
    var title :- At(parts, 1);
    JoinHead(parts, " - ");
    ArtistAndTitleParts(name);
    Ok((artist, title))
  }

  /** The artist is the text before the leftmost " - ", and the title is the
      first part of what follows that occurrence */
  lemma ArtistAndTitleParts(name: string)
    requires Contains(name, " - ")
    ensures var parts := SplitParts(name, " - ");
      && |parts| >= 2
      && OccursAt(name, " - ", |parts[0]|)
      && (forall j: nat :: j < |parts[0]| ==> !OccursAt(name, " - ", j))
      && parts[1] == SplitParts(name[|parts[0]| + 3..], " - ")[0]
  {
    var parts := SplitParts(name, " - ");
    FirstPart(name, " - ");
    var i := Find(name, " - ").value;
    assert parts == [name[..i]] + SplitParts(name[i + 3..], " - ");
  }

  /** No occurrence of " - " in `artist + " - " + title` starts inside
      `artist` when the artist neither holds the separator nor ends in '-' */
  lemma NoEarlierSeparator(artist: string, title: string, j: nat)
    requires j < |artist| && !Contains(artist, " - ")
    requires artist[|artist| - 1] != '-'
    ensures !OccursAt(artist + " - " + title, " - ", j)
  {
    var name := artist + " - " + title;
    if j + 3 <= |artist| {
      assert name[j..j + 3] == artist[j..j + 3];
      assert !OccursAt(artist, " - ", j);
    } else {
      assert name[j + 1] != '-';
      assert j + 3 <= |name| ==> name[j..j + 3][1] == name[j + 1];
    }
  }

  /** Splitting `artist + " - " + title` on " - " gives back exactly the two
      halves, provided neither holds the separator and the artist does not end
      in '-' (which would let an earlier " - " straddle the boundary). */
  lemma {:induction false} SplitAroundSeparator(artist: string, title: string)
    requires !Contains(artist, " - ") && !Contains(title, " - ")
    requires |artist| > 0 ==> artist[|artist| - 1] != '-'
    ensures SplitParts(artist + " - " + title, " - ") == [artist, title]
  {
    var name := artist + " - " + title;
    assert OccursAt(name, " - ", |artist|) by {
      assert name[|artist|..|artist| + 3] == " - ";
    }
    forall j: nat | j < |artist|
      ensures !OccursAt(name, " - ", j)
    {
      NoEarlierSeparator(artist, title, j);
    }
    assert Find(name, " - ") == Some(|artist|);
    assert name[..|artist|] == artist;
    assert name[|artist| + 3..] == title;
    assert SplitParts(title, " - ") == [title];
  }

  /** A name with exactly one separator splits back into its two halves */
  lemma ArtistAndTitleRoundTrip(artist: string, title: string)
    requires !Contains(artist, " - ") && !Contains(title, " - ")
    requires |artist| > 0 ==> artist[|artist| - 1] != '-'
    ensures ArtistAndTitle(artist + " - " + title) == Ok((artist, title))
  {
    SplitAroundSeparator(artist, title);
  }

  /** With the default pattern (title 1, artist 0, " - "), a bookmark named
      `artist + " - " + title` becomes the track of that artist and title */
  lemma CreateTrackDefaultPattern(artist: string, title: string, url: Json)
    requires !Contains(artist, " - ") && !Contains(title, " - ")
    requires |artist| > 0 ==> artist[|artist| - 1] != '-'
    ensures var name := artist + " - " + title;
      CreateTrack(JObject(map["name" := JString(name), "url" := url]), Pattern(1, 0, " - "))
      == Ok(Track(url, name, title, artist))
  {
    SplitAroundSeparator(artist, title);
  }

  /** The bookmark {"name": "Daft Punk - One More Time", "url": "u"} */
  lemma CreateTrackExample()
    ensures CreateTrack(
      JObject(map["name" := JString("Daft Punk - One More Time"), "url" := JString("u")]),
      Pattern(1, 0, " - "))
      == Ok(Track(JString("u"), "Daft Punk - One More Time", "One More Time", "Daft Punk"))
  {
    var artist, title := "Daft Punk", "One More Time";
    NoDashNoSeparator(artist);
    NoDashNoSeparator(title);
    ExampleName();
    CreateTrackDefaultPattern(artist, title, JString("u"));
  }

  lemma ExampleName()
    ensures "Daft Punk" + " - " + "One More Time" == "Daft Punk - One More Time"
  {
    var name := "Daft Punk" + " - " + "One More Time";
    assert |name| == 25;
    forall i | 0 <= i < 25
      ensures name[i] == "Daft Punk - One More Time"[i]
    {
    }
  }

  /** A string with no '-' cannot contain " - " */
  lemma NoDashNoSeparator(s: string)
    requires forall i :: 0 <= i < |s| ==> s[i] != '-'
    ensures !Contains(s, " - ")
  {
    forall i | 0 <= i <= |s|
      ensures !OccursAt(s, " - ", i)
    {
      if i + 3 <= |s| {
        assert s[i..i + 3][1] == s[i + 1] != '-';
      }
    }
  }
}

=== FILE: catalog.dfy ===
/** The shape of a catalogue (Spotify) track-search response, as far as the
    pipeline reads it. The search call itself is not modelled: its response
    is an input to the operations that consume it.
 */
module Catalog {
  import opened Wrappers

  /** `album` of a search item: its name, the URLs of `images[]` in order,
      `release_date` and `release_date_precision` */
  datatype Album = Album(name: string, images: seq<string>, releaseDate: string, releaseDatePrecision: string)

  /** One element of `tracks.items`: track name, the names of `artists[]` in
      order, and its album */
  datatype CatalogTrack = CatalogTrack(name: string, artists: seq<string>, album: Album)

  /** A search response: `None` when the response is falsy, otherwise its
      `tracks.items` in catalogue rank order */
  type SearchResults = Option<seq<CatalogTrack>>
}

=== FILE: converter.dfy ===
/** `AudioConverter.convert_to_mp3` in main.py: the paths it derives and its
    effect on the music directory. The encoder run is an input: whether it
    could be launched and whether it wrote the output file. Its exit status is
    never looked at, and once it has run the input file is removed.
 */
module Converter {
  import opened Wrappers

  /** The outcome of the external encoder run */
  datatype EncoderOutcome =
    | Encoded         // the encoder wrote the MP3 file
    | EncoderFailed   // it ran, and wrote nothing
    | EncoderMissing  // no `ffmpeg` executable: launching it raises FileNotFoundError

  /** The input and output paths of a conversion */
  datatype Paths = Paths(input: string, output: string)

  /** `{dir}/{name}.{ext}` and `{dir}/{name}.mp3`: both are the directory,
      a slash, the track name and a dot, followed by the extension for the
      input and by "mp3" for the output */
  function ConversionPaths(dir: string, name: string, ext: string): (p: Paths)
    ensures |p.input| == |dir| + |name| + 2 + |ext| && |p.output| == |dir| + |name| + 5
    ensures p.input[..|dir| + 1] == dir + "/" && p.output[..|dir| + 1] == dir + "/"
    ensures p.input[|dir| + 1..|dir| + 1 + |name|] == name && p.output[|dir| + 1..|dir| + 1 + |name|] == name
    ensures p.input[|dir| + |name| + 1] == '.' && p.input[|dir| + |name| + 2..] == ext
    ensures p.output[|dir| + |name| + 1..] == ".mp3"
    ensures p.input == p.output <==> ext == "mp3"
  {
    var stem := dir + "/" + name + ".";
    assert stem[..|dir| + 1] == dir + "/" && stem[|dir| + 1..|dir| + 1 + |name|] == name;
    assert (stem + ext)[|stem|..] == ext && (stem + "mp3")[|stem|..] == "mp3";
    assert (stem + ext)[..|stem|] == stem && (stem + "mp3")[..|stem|] == stem;
    Paths(stem + ext, stem + "mp3")
  }

  /** The directory after a conversion and the output path it returns. An
      encoder that cannot be launched raises before anything is removed, so
      the input stays. A successful encoder run writes the output (which
      needs the input to exist); removing a missing input raises. */
  function ConvertToMp3(files: set<string>, dir: string, name: string, ext: string, encoder: EncoderOutcome)
    : (r: Result<(set<string>, string)>)
    ensures var p := ConversionPaths(dir, name, ext);
      && (r.Err? <==> encoder.EncoderMissing? || p.input !in files)
      && (r.Err? ==> r.error == FileNotFoundError)
      && (r.Ok? ==> r.value.1 == p.output && p.input !in r.value.0)
      && (r.Ok? && encoder.Encoded? && ext != "mp3" ==> p.output in r.value.0)
      && (r.Ok? && encoder.EncoderFailed? ==> r.value.0 == files - {p.input})
      && (r.Ok? ==> forall f :: f != p.input && f != p.output ==> (f in r.value.0 <==> f in files))
  {
    var p := ConversionPaths(dir, name, ext);
    if encoder.EncoderMissing? then Err(FileNotFoundError)
    else
      var encoded := if encoder.Encoded? && p.input in files then files + {p.output} else files;
      if p.input !in encoded then Err(FileNotFoundError)
      else Ok((encoded - {p.input}, p.output))
  }

  /** A download that is already MP3 is converted onto itself and then
      removed: whatever a launched encoder did, no file is left at the output
      path. */
  lemma Mp3InputIsLost(files: set<string>, dir: string, name: string, encoder: EncoderOutcome)
    requires ConversionPaths(dir, name, "mp3").input in files && !encoder.EncoderMissing?
    ensures ConvertToMp3(files, dir, name, "mp3", encoder).Ok?
    ensures ConversionPaths(dir, name, "mp3").output !in ConvertToMp3(files, dir, name, "mp3", encoder).value.0
  {
  }
}

=== FILE: levenshtein.dfy ===
/** The artist-similarity score of `levenshtein_dist_percent`: a dynamic-
    programming edit distance turned into a percentage of the longer length.

    `Dist` is the recursive definition of the edit distance between two
    strings (unit cost for deletion, insertion and substitution, no cost for
    an equal character); `DistanceTable` is the table the source fills, and is
    proved to compute `Dist`. The percentage is kept as an exact `real`.
 */
module Levenshtein {
  import opened Wrappers

  function Min3(x: nat, y: nat, z: nat): nat {
    if x <= y && x <= z then x else if y <= z then y else z
  }

  function Max(x: nat, y: nat): nat {
    if x >= y then x else y
  }

  /** Substitution cost of the last characters */
  function Cost(x: char, y: char): nat {
    if x == y then 0 else 1
  }

  /** Edit distance between the prefixes `a[..i]` and `b[..j]`, by recursion
      on their last characters: the value the table cell `[i][j]` holds */
  function PrefixDist(a: string, b: string, i: nat, j: nat): nat
    requires i <= |a| && j <= |b|
    decreases i + j
  {
    if i == 0 then j
    else if j == 0 then i
    else Min3(PrefixDist(a, b, i - 1, j) + 1,
              PrefixDist(a, b, i, j - 1) + 1,
              PrefixDist(a, b, i - 1, j - 1) + Cost(a[i - 1], b[j - 1]))
  }

  /** The Levenshtein distance between two whole strings */
  function Dist(a: string, b: string): nat {
    PrefixDist(a, b, |a|, |b|)
  }

  /** The source's table fill: row 0 and column 0 hold 0..len, every other
      cell the minimum of deletion, insertion and substitution; the result is
      the bottom-right cell. */
  method DistanceTable(a: string, b: string) returns (d: nat)
    ensures d == Dist(a, b)
  {
    var m := new nat[|a| + 1, |b| + 1];
    for i := 0 to |a| + 1
      invariant forall p :: 0 <= p < i ==> m[p, 0] == p
    {
      m[i, 0] := i;
    }
    for j := 0 to |b| + 1
      invariant forall p :: 0 <= p <= |a| ==> m[p, 0] == p
      invariant forall q :: 0 <= q < j ==> m[0, q] == q
    {
      m[0, j] := j;
    }
    assert forall q :: 0 <= q <= |b| ==> m[0, q] == PrefixDist(a, b, 0, q);
    for i := 1 to |a| + 1
      invariant forall p, q :: 0 <= p < i && 0 <= q <= |b| ==> m[p, q] == PrefixDist(a, b, p, q)
      invariant forall p :: i <= p <= |a| ==> m[p, 0] == p
    {
      FillRow(a, b, m, i);
    }
    d := m[|a|, |b|];
  }

  /** Row `i` of the table, filled left to right from the rows above it;
      no other row changes */
  method FillRow(a: string, b: string, m: array2<nat>, i: nat)
    requires m.Length0 == |a| + 1 && m.Length1 == |b| + 1 && 1 <= i <= |a|
    requires forall p, q :: 0 <= p < i && 0 <= q <= |b| ==> m[p, q] == PrefixDist(a, b, p, q)
    requires m[i, 0] == i
    modifies m
    ensures forall p, q :: 0 <= p <= i && 0 <= q <= |b| ==> m[p, q] == PrefixDist(a, b, p, q)
    ensures forall p :: i < p <= |a| ==> m[p, 0] == old(m[p, 0])
  {
    for j := 1 to |b| + 1
      invariant forall p, q :: 0 <= p < i && 0 <= q <= |b| ==> m[p, q] == PrefixDist(a, b, p, q)
      invariant forall q :: 0 <= q < j ==> m[i, q] == PrefixDist(a, b, i, q)
      invariant forall p :: i < p <= |a| ==> m[p, 0] == old(m[p, 0])
    {
      FillCell(a, b, m, i, j);
    }
    forall p, q | 0 <= p <= i && 0 <= q <= |b|
      ensures m[p, q] == PrefixDist(a, b, p, q)
    {
    }
  }

  /** Cell `[i, j]`: the cheapest of deleting, inserting and substituting the
      last characters, read from the three neighbours already filled */
  method FillCell(a: string, b: string, m: array2<nat>, i: nat, j: nat)
    requires m.Length0 == |a| + 1 && m.Length1 == |b| + 1 && 1 <= i <= |a| && 1 <= j <= |b|
    requires forall p, q :: 0 <= p < i && 0 <= q <= |b| ==> m[p, q] == PrefixDist(a, b, p, q)
    requires forall q :: 0 <= q < j ==> m[i, q] == PrefixDist(a, b, i, q)
    modifies m
    ensures forall p, q :: 0 <= p < i && 0 <= q <= |b| ==> m[p, q] == PrefixDist(a, b, p, q)
    ensures forall q :: 0 <= q <= j ==> m[i, q] == PrefixDist(a, b, i, q)
    ensures forall p :: i < p <= |a| ==> m[p, 0] == old(m[p, 0])
  {
    var cost := if a[i - 1] == b[j - 1] then 0 else 1;
    var cell := Min3(m[i - 1, j] + 1, m[i, j - 1] + 1, m[i - 1, j - 1] + cost);
    assert cell == PrefixDist(a, b, i, j);
    m[i, j] := cell;
  }

  // ---------------------------------------------------------------------------
  // Properties of the distance

  /** The distance to an empty string is the other string's length */
  lemma DistToEmpty(a: string)
    ensures Dist(a, "") == |a| && Dist("", a) == |a|
  {
  }

  /** The distance is at least the difference of the lengths */
  lemma {:induction false} PrefixDistLowerBound(a: string, b: string, i: nat, j: nat)
    requires i <= |a| && j <= |b|
    ensures i - j <= PrefixDist(a, b, i, j) && j - i <= PrefixDist(a, b, i, j)
    decreases i + j
  {
    if i > 0 && j > 0 {
      PrefixDistLowerBound(a, b, i - 1, j);
      PrefixDistLowerBound(a, b, i, j - 1);
      PrefixDistLowerBound(a, b, i - 1, j - 1);
    }
  }

  /** The distance never exceeds the longer length */
  lemma {:induction false} PrefixDistUpperBound(a: string, b: string, i: nat, j: nat)
    requires i <= |a| && j <= |b|
    ensures PrefixDist(a, b, i, j) <= Max(i, j)
    decreases i + j
  {
    if i > 0 && j > 0 {
      PrefixDistUpperBound(a, b, i - 1, j - 1);
    }
  }

  /** Distance zero between prefixes means equal prefixes */
  lemma {:induction false} PrefixDistZeroEqual(a: string, b: string, i: nat, j: nat)
    requires i <= |a| && j <= |b| && PrefixDist(a, b, i, j) == 0
    ensures a[..i] == b[..j]
    decreases i + j
  {
    if i > 0 && j > 0 {
      PrefixDistLowerBound(a, b, i - 1, j);
      PrefixDistLowerBound(a, b, i, j - 1);
      assert PrefixDist(a, b, i - 1, j - 1) + Cost(a[i - 1], b[j - 1]) == 0;
      PrefixDistZeroEqual(a, b, i - 1, j - 1);
      assert a[..i] == a[..i - 1] + [a[i - 1]];
      assert b[..j] == b[..j - 1] + [b[j - 1]];
    }
  }

  /** Equal prefixes are at distance zero */
  lemma {:induction false} PrefixDistEqualZero(a: string, b: string, i: nat, j: nat)
    requires i <= |a| && j <= |b| && a[..i] == b[..j]
    ensures PrefixDist(a, b, i, j) == 0
    decreases i + j
  {
    assert |a[..i]| == i && |b[..j]| == j;
    if i > 0 && j > 0 {
      assert a[i - 1] == a[..i][i - 1] == b[..j][j - 1] == b[j - 1];
      assert a[..i - 1] == a[..i][..i - 1] == b[..j][..j - 1] == b[..j - 1];
      PrefixDistEqualZero(a, b, i - 1, j - 1);
    }
  }

  /** Distance zero between prefixes means equal prefixes, and conversely */
  lemma PrefixDistZero(a: string, b: string, i: nat, j: nat)
    requires i <= |a| && j <= |b|
    ensures PrefixDist(a, b, i, j) == 0 <==> a[..i] == b[..j]
  {
    if PrefixDist(a, b, i, j) == 0 {
      PrefixDistZeroEqual(a, b, i, j);
    }
    if a[..i] == b[..j] {
      PrefixDistEqualZero(a, b, i, j);
    }
  }

  /** Distance zero means equal strings */
  lemma DistZeroIsEqual(a: string, b: string)
    ensures Dist(a, b) == 0 <==> a == b
  {
    PrefixDistZero(a, b, |a|, |b|);
    assert a[..|a|] == a && b[..|b|] == b;
  }

  /** A string is at distance zero from itself */
  lemma DistSelf(a: string)
    ensures Dist(a, a) == 0
  {
    DistZeroIsEqual(a, a);
  }

  /** Swapping the strings transposes the table */
  lemma {:induction false} PrefixDistSymmetric(a: string, b: string, i: nat, j: nat)
    requires i <= |a| && j <= |b|
    ensures PrefixDist(a, b, i, j) == PrefixDist(b, a, j, i)
    decreases i + j
  {
    if i > 0 && j > 0 {
      PrefixDistSymmetric(a, b, i - 1, j);
      PrefixDistSymmetric(a, b, i, j - 1);
      PrefixDistSymmetric(a, b, i - 1, j - 1);
      Min3Swap(PrefixDist(a, b, i - 1, j) + 1, PrefixDist(a, b, i, j - 1) + 1,
               PrefixDist(a, b, i - 1, j - 1) + Cost(a[i - 1], b[j - 1]));
    }
  }

  lemma Min3Swap(x: nat, y: nat, z: nat)
    ensures Min3(x, y, z) == Min3(y, x, z)
  {
  }

  /** The distance does not depend on the order of its arguments */
  lemma DistSymmetric(a: string, b: string)
    ensures Dist(a, b) == Dist(b, a)
  {
    PrefixDistSymmetric(a, b, |a|, |b|);
  }

  // ---------------------------------------------------------------------------
  // The percentage

  /** `levenshtein_dist_percent(a, b)`: `(1 - distance / max_len) * 100`. Two
      empty strings make `max_len` zero and the division raises; otherwise the
      score lies in [0, 100] and is 100 exactly for equal strings. */
  function Similarity(a: string, b: string): (r: Result<real>)
    ensures r.Err? <==> a == "" && b == ""
    ensures r.Err? ==> r.error == ZeroDivisionError
    ensures r.Ok? ==> 0.0 <= r.value <= 100.0
    ensures r.Ok? ==> (r.value == 100.0 <==> a == b)
  {
    var maxLen := Max(|a|, |b|);
    if maxLen == 0 then Err(ZeroDivisionError)
    else
      var d := Dist(a, b);
      PrefixDistUpperBound(a, b, |a|, |b|);
      DistZeroIsEqual(a, b);
      PercentBounds(d, maxLen);
      Ok(Percent(d, maxLen))
  }

  /** `(1 - distance / max_len) * 100` */
  function Percent(d: nat, maxLen: nat): real
    requires 0 < maxLen
  {
    (1.0 - d as real / maxLen as real) * 100.0
  }

  lemma PercentBounds(d: nat, maxLen: nat)
    requires 0 < maxLen && d <= maxLen
    ensures 0.0 <= Percent(d, maxLen) <= 100.0
    ensures Percent(d, maxLen) == 100.0 <==> d == 0
  {
    var q := d as real / maxLen as real;
    assert q * maxLen as real == d as real;
    assert 0.0 <= q <= 1.0;
  }

  /** The score is the share of the longer length that the distance leaves,
      as a percentage: score times longer length is 100 times the longer
      length less the distance */
  lemma SimilarityOfDist(a: string, b: string)
    requires a != "" || b != ""
    ensures Similarity(a, b).Ok?
    ensures Similarity(a, b).value * Max(|a|, |b|) as real == 100.0 * (Max(|a|, |b|) - Dist(a, b)) as real
  {
    SimilarityIsPercent(a, b);
    PercentScaled(Dist(a, b) as real, Max(|a|, |b|) as real);
  }

  /** Scores order pairs of strings by their distance relative to the longer
      length: one pair scores at most another exactly when its distance is at
      least as large a fraction of its longer string */
  lemma SimilarityOrder(a: string, b: string, c: string, d: string)
    requires a != "" || b != ""
    requires c != "" || d != ""
    ensures Similarity(a, b).Ok? && Similarity(c, d).Ok?
    ensures Similarity(a, b).value <= Similarity(c, d).value
            <==> Dist(c, d) * Max(|a|, |b|) <= Dist(a, b) * Max(|c|, |d|)
  {
    var m1, d1 := Max(|a|, |b|), Dist(a, b);
    var m2, d2 := Max(|c|, |d|), Dist(c, d);
    SimilarityIsPercent(a, b);
    SimilarityIsPercent(c, d);
    PercentOrder(d1, m1, d2, m2);
  }

  lemma SimilarityIsPercent(a: string, b: string)
    requires a != "" || b != ""
    ensures Max(|a|, |b|) > 0 && Similarity(a, b) == Ok(Percent(Dist(a, b), Max(|a|, |b|)))
  {
  }

  lemma PercentScaled(d: real, m: real)
    requires m > 0.0
    ensures (1.0 - d / m) * 100.0 * m == 100.0 * (m - d)
  {
    assert d / m * m == d;
  }

  lemma PercentOrder(d1: nat, m1: nat, d2: nat, m2: nat)
    requires m1 > 0 && m2 > 0
    ensures Percent(d1, m1) <= Percent(d2, m2) <==> d2 * m1 <= d1 * m2
  {
    RealPercentOrder(d1 as real, m1 as real, d2 as real, m2 as real);
    CastProduct(d2, m1);
    CastProduct(d1, m2);
  }

  lemma RealPercentOrder(d1: real, m1: real, d2: real, m2: real)
    requires m1 > 0.0 && m2 > 0.0
    ensures (1.0 - d1 / m1) * 100.0 <= (1.0 - d2 / m2) * 100.0 <==> d2 * m1 <= d1 * m2
  {
    var q1, q2 := d1 / m1, d2 / m2;
    assert q1 * m1 == d1 && q2 * m2 == d2;
    ScaleOrder(q2, q1, m1 * m2);
    assert q2 * (m1 * m2) == (q2 * m2) * m1;
    assert q1 * (m1 * m2) == (q1 * m1) * m2;
  }

  lemma CastProduct(x: nat, y: nat)
    ensures (x * y) as real == x as real * y as real
  {
  }

  lemma ScaleOrder(x: real, y: real, k: real)
    requires k > 0.0
    ensures x <= y <==> x * k <= y * k
  {
  }

  /** The score is symmetric in its arguments */
  lemma SimilaritySymmetric(a: string, b: string)
    ensures Similarity(a, b) == Similarity(b, a)
  {
    DistSymmetric(a, b);
  }

  /** A non-empty string scored against the empty string scores 0 */
  lemma SimilarityToEmpty(a: string)
    requires a != ""
    ensures Similarity(a, "") == Ok(0.0) && Similarity("", a) == Ok(0.0)
  {
    DistToEmpty(a);
    assert Max(|a|, 0) == Max(0, |a|) == |a|;
    assert |a| as real / |a| as real == 1.0;
  }
}

=== FILE: metadata_fetcher.dfy ===
/** `SpotifyMetadataFetcher.get_metadata` in main.py, after the search call:
    the metadata is taken from the first search item only, with no scoring.
 */
module MetadataFetcher {
  import opened Wrappers
  import opened PyStr
  import opened Catalog

  /** The `TrackMetadata` record; `coverUrl` is `None` when the album has no image */
  datatype TrackMetadata = TrackMetadata(
    year: string,
    title: string,
    album: string,
    artist: string,
    coverUrl: Option<string>)

  /** The metadata extracted from a search response: nothing for a falsy
      response or an empty item list; otherwise the first item's name, album
      and first artist, the first four characters of its release date and its
      first cover image. A first item without artists raises. */
  function GetMetadata(results: SearchResults): (r: Result<Option<TrackMetadata>>)
    ensures r == Ok(None) <==> results.None? || |results.value| == 0
    ensures r.Err? <==> results.Some? && |results.value| > 0 && |results.value[0].artists| == 0
    ensures r.Err? ==> r.error == IndexError
    ensures r.Ok? && r.value.Some? ==>
      var first, m := results.value[0], r.value.value;
      && m.title == first.name
      && m.album == first.album.name
      && m.artist == first.artists[0]
      && m.year <= first.album.releaseDate
      && |m.year| == (if |first.album.releaseDate| < 4 then |first.album.releaseDate| else 4)
      && (m.coverUrl.Some? <==> |first.album.images| > 0)
      && (m.coverUrl.Some? ==> m.coverUrl.value == first.album.images[0])
  {
    if results.None? || |results.value| == 0 then Ok(None)
    else
      var first := results.value[0];
      var artist :- At(first.artists, 0);
      var cover := if |first.album.images| > 0 then Some(first.album.images[0]) else None;
      Ok(Some(TrackMetadata(Take(first.album.releaseDate, 4), first.name, first.album.name, artist, cover)))
  }

  /** Only the first item matters: items after it never change the result */
  lemma OnlyFirstItemMatters(first: CatalogTrack, rest1: seq<CatalogTrack>, rest2: seq<CatalogTrack>)
    ensures GetMetadata(Some([first] + rest1)) == GetMetadata(Some([first] + rest2))
  {
  }
}

=== FILE: processor.dfy ===
/** `MusicProcessor.process_tracks` in main.py as a sequential state machine.

    The downloader, the encoder, the catalogue search and the tag writer are
    outside the model; for the track at each position, `env` says what they
    did. The machine threads the set of files in the music directory and
    records one report per processed track; an exception from conversion,
    the catalogue search, metadata extraction or tag writing is not caught by
    the loop and ends the whole run.
 */
module Processor {
  import opened Wrappers
  import opened Bookmarks
  import opened Catalog
  import opened MetadataFetcher
  import opened Converter

  /** What the outside world did for one track */
  datatype StageOutcomes = StageOutcomes(
    download: Option<string>,        // the extension `download` returned; `None` when it caught an error
    fileAtExtension: bool,           // whether the downloaded file is named with that extension
    encoder: EncoderOutcome,         // whether the encoder could be launched and wrote the MP3 file
    search: Result<SearchResults>,   // the catalogue's answer to the track's query, or what the call raised
    tagSaved: bool)                  // whether loading the MP3, fetching the cover and saving succeed

  /** What happened to one track: the MP3 path when it was converted, and
      whether its tags were written */
  datatype TrackReport = TrackReport(name: string, output: Option<string>, tagged: bool)

  /** The run so far: the music directory's files, one report per processed
      track, and the overall progress counter */
  datatype RunState = RunState(files: set<string>, reports: seq<TrackReport>, overall: nat)

  datatype RunResult =
    | SetupFailed(error: PyError)             // `get_tracks` raised: nothing was processed
    | Aborted(error: PyError, state: RunState) // a track raised: the run stopped there
    | Finished(state: RunState)

  /** `if extension := ...`: the download returned a non-empty extension */
  predicate Downloaded(o: StageOutcomes) {
    o.download.Some? && o.download.value != ""
  }

  /** `get_metadata`: the search call's exception, or what is extracted from
      its response */
  function Metadata(o: StageOutcomes): (r: Result<Option<TrackMetadata>>)
    ensures o.search.Err? ==> r == Err(o.search.error)
    ensures o.search.Ok? ==> r == GetMetadata(o.search.value)
  {
    var results :- o.search;
    GetMetadata(results)
  }

  /** `if metadata := ...`: the catalogue gave metadata */
  predicate MetadataFound(o: StageOutcomes)
    ensures MetadataFound(o) <==>
      && o.search.Ok? && o.search.value.Some? && |o.search.value.value| > 0
      && |o.search.value.value[0].artists| > 0
  {
    Metadata(o).Ok? && Metadata(o).value.Some?
  }

  /** The files once the downloader has written the track's file */
  function DownloadedFiles(track: Track, o: StageOutcomes, dir: string, files: set<string>): set<string>
    requires Downloaded(o)
  {
    var input := ConversionPaths(dir, track.name, o.download.value).input;
    if o.fileAtExtension then files + {input} else files
  }

  /** The conversion step of a downloaded track */
  function Converted(track: Track, o: StageOutcomes, dir: string, files: set<string>): Result<(set<string>, string)>
    requires Downloaded(o)
  {
    ConvertToMp3(DownloadedFiles(track, o, dir, files), dir, track.name, o.download.value, o.encoder)
  }

  /** `MetadataWriter.write_to_disk`: loading a missing MP3 raises, and so
      does any failure the outside world reports */
  function WriteTags(files: set<string>, path: string, tagSaved: bool): (r: Result<()>)
    ensures r.Ok? <==> path in files && tagSaved
    ensures r.Err? ==> r.error == TagError
  {
    if path in files && tagSaved then Ok(()) else Err(TagError)
  }

  /** One iteration of the loop: download, then (only on a returned
      extension) convert, look up metadata and (only when found) write it.
      It raises exactly when a downloaded track fails to convert, its
      metadata lookup raises, or its found metadata cannot be written; the
      first of these decides the exception. On success the files are those
      the conversion leaves. */
  function ProcessTrack(track: Track, o: StageOutcomes, dir: string, files: set<string>)
    : (r: Result<(set<string>, TrackReport)>)
    ensures !Downloaded(o) ==> r == Ok((files, TrackReport(track.name, None, false)))
    ensures r.Err? <==>
      && Downloaded(o)
      && (|| Converted(track, o, dir, files).Err?
          || Metadata(o).Err?
          || (MetadataFound(o) && WriteTags(Converted(track, o, dir, files).value.0,
                                            Converted(track, o, dir, files).value.1, o.tagSaved).Err?))
    ensures Downloaded(o) && Converted(track, o, dir, files).Err?
            ==> r == Err(Converted(track, o, dir, files).error)
    ensures Downloaded(o) && Converted(track, o, dir, files).Ok? && Metadata(o).Err?
            ==> r == Err(Metadata(o).error)
    ensures Downloaded(o) && Converted(track, o, dir, files).Ok? && Metadata(o).Ok? && r.Err?
            ==> r.error == TagError
    ensures r.Ok? && Downloaded(o) ==> r.value.0 == Converted(track, o, dir, files).value.0
    ensures r.Ok? ==> ReportAgrees(track, o, dir, r.value.1)
    ensures r.Ok? && r.value.1.tagged ==> r.value.1.output.value in r.value.0
    ensures r.Ok? && Downloaded(o) ==> ConversionPaths(dir, track.name, o.download.value).input !in r.value.0
    ensures Downloaded(o) && !o.fileAtExtension && ConversionPaths(dir, track.name, o.download.value).input !in files
            ==> r == Err(FileNotFoundError)
  {
    if !Downloaded(o) then Ok((files, TrackReport(track.name, None, false)))
    else
      var converted :- Converted(track, o, dir, files);
      var (afterConvert, output) := (converted.0, converted.1);
      var metadata :- Metadata(o);
      if metadata.None? then Ok((afterConvert, TrackReport(track.name, Some(output), false)))
      else
        var _ :- WriteTags(afterConvert, output, o.tagSaved);
        Ok((afterConvert, TrackReport(track.name, Some(output), true)))
  }

  /** A report says what the stage outcomes imply: converted exactly when the
      download returned an extension, to the MP3 path for it; tagged exactly
      when it was converted and metadata was found. */
  ghost predicate ReportAgrees(track: Track, o: StageOutcomes, dir: string, report: TrackReport) {
    && report.name == track.name
    && (report.output.Some? <==> Downloaded(o))
    && (report.output.Some? ==> report.output.value == ConversionPaths(dir, track.name, o.download.value).output)
    && (report.tagged <==> Downloaded(o) && MetadataFound(o))
  }

  /** A track whose encoder run failed, when metadata is found, makes the tag
      writer raise (unless an MP3 of that name was already there), and so
      ends the run. */
  lemma FailedEncodingAbortsTagging(track: Track, o: StageOutcomes, dir: string, files: set<string>)
    requires Downloaded(o) && o.fileAtExtension && o.encoder.EncoderFailed? && MetadataFound(o)
    requires ConversionPaths(dir, track.name, o.download.value).output !in files
    ensures ProcessTrack(track, o, dir, files) == Err(TagError)
  {
  }

  /** `fs[i]` is the music directory before track `i`: it starts at `files`,
      and each processed track turns `fs[i]` into `fs[i + 1]` with the
      recorded report. */
  ghost predicate Trace(tracks: seq<Track>, env: nat -> StageOutcomes, dir: string, files: set<string>,
                        reports: seq<TrackReport>, fs: seq<set<string>>) {
    && |reports| <= |tracks|
    && |fs| == |reports| + 1
    && fs[0] == files
    && forall i :: 0 <= i < |reports| ==>
         ProcessTrack(tracks[i], env(i), dir, fs[i]) == Ok((fs[i + 1], reports[i]))
  }

  /** What a run over `tracks` from the directory `files` reports: the tracks
      processed in order, each from the files the one before it left, with
      the overall counter advanced once per track; a finished run processed
      them all, and an aborted run stopped at a track that raised on the
      files then present. The files of the result are those before the
      track that raised. */
  ghost predicate RunAgrees(tracks: seq<Track>, env: nat -> StageOutcomes, dir: string, files: set<string>, r: RunResult)
    requires !r.SetupFailed?
  {
    var reports := r.state.reports;
    && r.state.overall == |reports| <= |tracks|
    && (exists fs :: Trace(tracks, env, dir, files, reports, fs) && fs[|reports|] == r.state.files)
    && (forall i :: 0 <= i < |reports| ==> ReportAgrees(tracks[i], env(i), dir, reports[i]))
    && (r.Finished? ==> |reports| == |tracks|)
    && (r.Aborted? ==>
          && |reports| < |tracks|
          && Downloaded(env(|reports|))
          && ProcessTrack(tracks[|reports|], env(|reports|), dir, r.state.files) == Err(r.error))
  }

  /** `process_tracks` after the tracks are parsed: each track in order, the
      overall counter advanced once per completed track. */
  method ProcessTracks(tracks: seq<Track>, env: nat -> StageOutcomes, dir: string, files: set<string>)
    returns (r: RunResult)
    ensures !r.SetupFailed? && RunAgrees(tracks, env, dir, files, r)
  {
    var state := RunState(files, [], 0);
    ghost var fs := [files];
    var i := 0;
    while i < |tracks|
      invariant i <= |tracks|
      invariant state.overall == |state.reports| == i
      invariant Trace(tracks, env, dir, files, state.reports, fs) && fs[i] == state.files
      invariant forall k :: 0 <= k < i ==> ReportAgrees(tracks[k], env(k), dir, state.reports[k])
    {
      var step := ProcessTrack(tracks[i], env(i), dir, state.files);
      if step.Err? {
        return Aborted(step.error, state);
      }
      state := RunState(step.value.0, state.reports + [step.value.1], state.overall + 1);
      fs := fs + [step.value.0];
      i := i + 1;
    }
    return Finished(state);
  }

  /** Every step a trace records succeeded */
  lemma TraceStepOk(tracks: seq<Track>, env: nat -> StageOutcomes, dir: string, files: set<string>,
                    reports: seq<TrackReport>, fs: seq<set<string>>, i: nat)
    requires Trace(tracks, env, dir, files, reports, fs)
    ensures i < |reports| ==> ProcessTrack(tracks[i], env(i), dir, fs[i]).Ok?
  {
    if i < |reports| {
      assert ProcessTrack(tracks[i], env(i), dir, fs[i]) == Ok((fs[i + 1], reports[i]));
    }
  }

  /** Two traces over the same tracks agree on every step both have taken */
  lemma {:induction false} TracesAgree(tracks: seq<Track>, env: nat -> StageOutcomes, dir: string, files: set<string>,
                                        reports1: seq<TrackReport>, fs1: seq<set<string>>,
                                        reports2: seq<TrackReport>, fs2: seq<set<string>>, n: nat)
    requires Trace(tracks, env, dir, files, reports1, fs1) && Trace(tracks, env, dir, files, reports2, fs2)
    requires n <= |reports1| && n <= |reports2|
    ensures fs1[n] == fs2[n]
    ensures forall i :: 0 <= i < n ==> reports1[i] == reports2[i]
  {
    if n > 0 {
      TracesAgree(tracks, env, dir, files, reports1, fs1, reports2, fs2, n - 1);
      var step := ProcessTrack(tracks[n - 1], env(n - 1), dir, fs1[n - 1]);
      assert step == Ok((fs1[n], reports1[n - 1])) == Ok((fs2[n], reports2[n - 1]));
    }
  }

  /** A run that stops after `n1` tracks cannot be matched by one that got
      further on the same tracks and outcomes */
  lemma NoLongerRun(tracks: seq<Track>, env: nat -> StageOutcomes, dir: string, files: set<string>,
                    r1: RunResult, r2: RunResult)
    requires !r1.SetupFailed? && !r2.SetupFailed?
    requires RunAgrees(tracks, env, dir, files, r1) && RunAgrees(tracks, env, dir, files, r2)
    ensures |r2.state.reports| <= |r1.state.reports|
  {
    var n1, n2 := |r1.state.reports|, |r2.state.reports|;
    var fs1 :| Trace(tracks, env, dir, files, r1.state.reports, fs1) && fs1[n1] == r1.state.files;
    var fs2 :| Trace(tracks, env, dir, files, r2.state.reports, fs2) && fs2[n2] == r2.state.files;
    TracesAgree(tracks, env, dir, files, r1.state.reports, fs1, r2.state.reports, fs2, if n1 < n2 then n1 else n2);
    TraceStepOk(tracks, env, dir, files, r2.state.reports, fs2, n1);
  }

  /** The stage outcomes determine the run: whether it finishes or aborts,
      where, with which exception, and the files and reports it leaves. */
  lemma RunIsDetermined(tracks: seq<Track>, env: nat -> StageOutcomes, dir: string, files: set<string>,
                        r1: RunResult, r2: RunResult)
    requires !r1.SetupFailed? && !r2.SetupFailed?
    requires RunAgrees(tracks, env, dir, files, r1) && RunAgrees(tracks, env, dir, files, r2)
    ensures r1 == r2
  {
    NoLongerRun(tracks, env, dir, files, r1, r2);
    NoLongerRun(tracks, env, dir, files, r2, r1);
    var n := |r1.state.reports|;
    var fs1 :| Trace(tracks, env, dir, files, r1.state.reports, fs1) && fs1[n] == r1.state.files;
    var fs2 :| Trace(tracks, env, dir, files, r2.state.reports, fs2) && fs2[n] == r2.state.files;
    TracesAgree(tracks, env, dir, files, r1.state.reports, fs1, r2.state.reports, fs2, n);
    assert r1.state.reports == r2.state.reports;
    assert r1.state == r2.state;
  }

  /** A first track that raises ends the run before any report, with the
      directory untouched */
  lemma FirstTrackRaisingAborts(tracks: seq<Track>, env: nat -> StageOutcomes, dir: string, files: set<string>,
                                r: RunResult)
    requires |tracks| > 0 && ProcessTrack(tracks[0], env(0), dir, files).Err?
    requires !r.SetupFailed? && RunAgrees(tracks, env, dir, files, r)
    ensures r == Aborted(ProcessTrack(tracks[0], env(0), dir, files).error, RunState(files, [], 0))
  {
    var fs :| Trace(tracks, env, dir, files, r.state.reports, fs) && fs[|r.state.reports|] == r.state.files;
    TraceStepOk(tracks, env, dir, files, r.state.reports, fs, 0);
  }

  /** The whole run: a failure to read the tracks stops it before any track;
      otherwise the tracks are processed in order. */
  method Run(document: Json, position: int, pattern: Pattern, env: nat -> StageOutcomes, dir: string, files: set<string>)
    returns (r: RunResult)
    ensures r.SetupFailed? <==> GetTracks(document, position, pattern).Err?
    ensures r.SetupFailed? ==> r.error == GetTracks(document, position, pattern).error
    ensures !r.SetupFailed? ==> RunAgrees(GetTracks(document, position, pattern).value, env, dir, files, r)
  {
    var parsed := GetTracks(document, position, pattern);
    if parsed.Err? {
      return SetupFailed(parsed.error);
    }
    r := ProcessTracks(parsed.value, env, dir, files);
  }
}

=== FILE: progress.dfy ===
/** `AudioDownloader._progress_hook` in main.py: the decision, for one
    download event, of which updates to send to the progress display.
 */
module Progress {
  import opened Wrappers

  /** A numeric entry of the event dictionary: missing, present as `None`, or
      a number */
  datatype Field = Absent | Null | Num(v: real)

  /** The download event the hook receives */
  datatype DownloadEvent = DownloadEvent(
    status: string,
    downloadedBytes: Field,
    totalBytes: Field,
    totalBytesEstimate: Field)

  /** One `progress.update` call */
  datatype Update =
    | SetCompleted(completed: Field, total: real)
    | SetDescription(text: string)

  /** Python truthiness of an entry */
  predicate Truthy(f: Field) {
    f.Num? && f.v != 0.0
  }

  /** `d.get(key, default)`: a missing entry reads as the default, a `None`
      entry stays `None` */
  function GetOr(f: Field, default: Field): Field {
    if f.Absent? then default else f
  }

  /** `d.get("total_bytes") or d.get("total_bytes_estimate", 0)` */
  function Total(e: DownloadEvent): (t: Field)
    ensures !t.Absent?
    ensures Truthy(e.totalBytes) ==> t == e.totalBytes
    ensures !Truthy(e.totalBytes) && e.totalBytesEstimate.Absent? ==> t == Num(0.0)
    ensures !Truthy(e.totalBytes) && !e.totalBytesEstimate.Absent? ==> t == e.totalBytesEstimate
  {
    var exact := GetOr(e.totalBytes, Null);
    if Truthy(exact) then exact else GetOr(e.totalBytesEstimate, Num(0.0))
  }

  /** The description shown while a track downloads */
  function Description(trackName: string): string {
    "[green]Downloading: '" + trackName + "'"
  }

  /** The updates one event causes: nothing unless the status is
      "downloading"; then a completion update when the total is positive,
      followed by the description. A total that ends up `None` cannot be
      compared with 0 and raises. */
  function ProgressHook(e: DownloadEvent, trackName: string): (r: Result<seq<Update>>)
    ensures e.status != "downloading" ==> r == Ok([])
    ensures r.Err? <==> e.status == "downloading" && Total(e).Null?
    ensures r.Err? ==> r.error == TypeError
    ensures r.Ok? && e.status == "downloading" ==>
      && 1 <= |r.value| <= 2
      && r.value[|r.value| - 1] == SetDescription(Description(trackName))
      && (|r.value| == 2 <==> Total(e).Num? && Total(e).v > 0.0)
      && (|r.value| == 2 ==> r.value[0] == SetCompleted(GetOr(e.downloadedBytes, Num(0.0)), Total(e).v))
  {
    if e.status != "downloading" then Ok([])
    else
      var total := Total(e);
      if total.Null? then Err(TypeError)
      else
        var downloaded := GetOr(e.downloadedBytes, Num(0.0));
        var completion := if total.v > 0.0 then [SetCompleted(downloaded, total.v)] else [];
        Ok(completion + [SetDescription(Description(trackName))])
  }

  /** Every completion update reports a positive total: an unknown length
      (no total, or a zero total and estimate) never reports progress. */
  lemma CompletionHasPositiveTotal(e: DownloadEvent, trackName: string, u: Update)
    requires ProgressHook(e, trackName).Ok? && u in ProgressHook(e, trackName).value
    ensures u.SetCompleted? ==> u.total > 0.0
    ensures u.SetCompleted? ==>
      || (e.totalBytes.Num? && u.total == e.totalBytes.v)
      || (e.totalBytesEstimate.Num? && u.total == e.totalBytesEstimate.v)
  {
  }

  /** A positive exact size wins over any estimate */
  lemma ExactSizePreferred(e: DownloadEvent, trackName: string)
    requires e.status == "downloading" && e.totalBytes.Num? && e.totalBytes.v > 0.0
    ensures ProgressHook(e, trackName)
      == Ok([SetCompleted(GetOr(e.downloadedBytes, Num(0.0)), e.totalBytes.v), SetDescription(Description(trackName))])
  {
    var completion := SetCompleted(GetOr(e.downloadedBytes, Num(0.0)), e.totalBytes.v);
    assert [completion] + [SetDescription(Description(trackName))]
        == [completion, SetDescription(Description(trackName))];
  }
}

=== FILE: pystr.dfy ===
/** The Python string and sequence primitives the pipeline relies on, with
    Python's semantics: `str.find`/`str.split` on an explicit separator,
    `str.strip()`, `str.lower()`, slicing `s[:n]` and subscripting `xs[i]` with
    negative indices.
 */
module PyStr {
  import opened Wrappers

  // ---------------------------------------------------------------------------
  // Subscripting and slicing

  /** The position `xs[i]` denotes in a sequence of length `n`, if any:
      negative indices count from the end, anything else out of range is an
      IndexError. */
  function PyIndex(n: nat, i: int): (r: Option<nat>)
    ensures r.Some? <==> -(n as int) <= i < n
    ensures r.Some? ==> r.value < n && (r.value == i || r.value == n + i)
  {
    if 0 <= i < n then Some(i)
    else if -(n as int) <= i < 0 then Some(n + i)
    else None
  }

  /** Python `xs[i]` */
  function At<T>(xs: seq<T>, i: int): (r: Result<T>)
    ensures r.Err? <==> !(-(|xs| as int) <= i < |xs|)
    ensures r.Err? ==> r.error == IndexError
    ensures r.Ok? ==> r.value == xs[PyIndex(|xs|, i).value]
  {
    match PyIndex(|xs|, i)
    case Some(k) => Ok(xs[k])
    case None => Err(IndexError)
  }

  /** Python `s[:n]` for a non-negative bound */
  function Take(s: string, n: nat): (r: string)
    ensures |r| <= n && |r| <= |s|
    ensures |s| >= n ==> |r| == n
    ensures |s| <= n ==> r == s
    ensures r <= s
  {
    if |s| <= n then s else s[..n]
  }

  // ---------------------------------------------------------------------------
  // Searching and splitting

  /** `sep` occurs in `s` at position `i` */
  predicate OccursAt(s: string, sep: string, i: nat) {
    i + |sep| <= |s| && s[i..i + |sep|] == sep
  }

  /** `sep in s` */
  predicate Contains(s: string, sep: string) {
    exists i :: 0 <= i <= |s| && OccursAt(s, sep, i)
  }

  /** A string without the character `c` does not contain `[c]` */
  lemma NoCharNoContains(s: string, c: char)
    requires forall i :: 0 <= i < |s| ==> s[i] != c
    ensures !Contains(s, [c])
  {
    forall i | 0 <= i <= |s|
      ensures !OccursAt(s, [c], i)
    {
      if i < |s| {
        assert s[i..i + 1] == [s[i]];
      }
    }
  }

  /** A string that does not contain `[c]` has no character `c` */
  lemma NoContainsNoChar(s: string, c: char)
    requires !Contains(s, [c])
    ensures forall i :: 0 <= i < |s| ==> s[i] != c
  {
    forall i | 0 <= i < |s|
      ensures s[i] != c
    {
      assert s[i..i + 1] == [s[i]];
      assert !OccursAt(s, [c], i);
    }
  }

  /** Python `s.find(sep)`: the leftmost occurrence, `None` for `-1` */
  function Find(s: string, sep: string): (r: Option<nat>)
    ensures r.Some? ==> OccursAt(s, sep, r.value)
    ensures r.Some? ==> forall j: nat :: j < r.value ==> !OccursAt(s, sep, j)
    ensures r.None? <==> !Contains(s, sep)
    decreases |s|
  {
    if |s| < |sep| then None
    else if s[..|sep|] == sep then Some(0)
    else
      assert !OccursAt(s, sep, 0) by { assert s[0..|sep|] == s[..|sep|]; }
      ShiftOccurrence(s, sep);
      match Find(s[1..], sep)
      case None => None
      case Some(k) => Some(k + 1)
  }

  /** Occurrences in `s[1..]` are the occurrences in `s` shifted by one */
  lemma ShiftOccurrence(s: string, sep: string)
    requires |s| > 0
    ensures forall j: nat :: OccursAt(s[1..], sep, j) <==> OccursAt(s, sep, j + 1)
    ensures forall j: nat :: j >= 1 ==> (OccursAt(s, sep, j) <==> OccursAt(s[1..], sep, j - 1))
    ensures !OccursAt(s, sep, 0) ==> (Contains(s, sep) <==> Contains(s[1..], sep))
  {
    forall j: nat
      ensures OccursAt(s[1..], sep, j) <==> OccursAt(s, sep, j + 1)
    {
      if j + |sep| <= |s| - 1 {
        assert s[1..][j..j + |sep|] == s[j + 1..j + 1 + |sep|];
      }
    }
    if !OccursAt(s, sep, 0) && Contains(s, sep) {
      var i :| 0 <= i <= |s| && OccursAt(s, sep, i);
      assert i >= 1 && OccursAt(s[1..], sep, i - 1);
    }
    if Contains(s[1..], sep) {
      var i :| 0 <= i <= |s[1..]| && OccursAt(s[1..], sep, i);
      assert OccursAt(s, sep, i + 1);
    }
  }

  /** Python `sep.join(parts)` */
  function Join(parts: seq<string>, sep: string): string
  {
    if |parts| == 0 then ""
    else if |parts| == 1 then parts[0]
    else parts[0] + sep + Join(parts[1..], sep)
  }

  /** A string in front of the first occurrence of `sep` holds no occurrence */
  lemma PrefixBeforeFirst(s: string, sep: string, i: nat)
    requires |sep| > 0 && i <= |s|
    requires forall j: nat :: j < i ==> !OccursAt(s, sep, j)
    ensures !Contains(s[..i], sep)
  {
    forall j: nat | OccursAt(s[..i], sep, j)
      ensures false
    {
      assert s[..i][j..j + |sep|] == s[j..j + |sep|];
      assert OccursAt(s, sep, j);
    }
  }

  /** Every cut is at the leftmost occurrence still available: no occurrence
      of `sep` starts inside a part that a separator follows, not even one
      that runs on into that separator. */
  predicate LeftmostCuts(parts: seq<string>, sep: string)
    requires |sep| > 0
  {
    forall k :: 0 <= k < |parts| - 1 ==> !Contains(parts[k] + sep[..|sep| - 1], sep)
  }

  /** The parts of `s` between the non-overlapping occurrences of a non-empty
      separator, scanning from the left */
  function SplitParts(s: string, sep: string): (parts: seq<string>)
    requires |sep| > 0
    ensures |parts| >= 1
    ensures Join(parts, sep) == s
    ensures forall k :: 0 <= k < |parts| ==> !Contains(parts[k], sep)
    ensures LeftmostCuts(parts, sep)
    ensures |parts| == 1 <==> !Contains(s, sep)
    decreases |s|
  {
    match Find(s, sep)
    case None => [s]
    case Some(i) =>
      var rest := SplitParts(s[i + |sep|..], sep);
      SplitStep(s, sep, i, rest);
      NoEarlierOccurrence(s, sep, i);
      ConsLeftmost(s[..i], rest, sep);
      [s[..i]] + rest
  }

  /** Nothing in front of the leftmost occurrence, extended by all but the
      last character of the separator, holds the separator */
  lemma NoEarlierOccurrence(s: string, sep: string, i: nat)
    requires |sep| > 0 && OccursAt(s, sep, i)
    requires forall j: nat :: j < i ==> !OccursAt(s, sep, j)
    ensures !Contains(s[..i] + sep[..|sep| - 1], sep)
  {
    var t := s[..i] + sep[..|sep| - 1];
    assert t == s[..i + |sep| - 1] by {
      assert s[i..i + |sep|] == sep;
    }
    forall j: nat | OccursAt(t, sep, j)
      ensures false
    {
      assert t[j..j + |sep|] == s[j..j + |sep|];
      assert OccursAt(s, sep, j);
    }
  }

  /** Putting a leftmost-cut part in front of leftmost-cut parts */
  lemma ConsLeftmost(head: string, rest: seq<string>, sep: string)
    requires |sep| > 0 && |rest| >= 1
    requires !Contains(head + sep[..|sep| - 1], sep)
    requires LeftmostCuts(rest, sep)
    ensures LeftmostCuts([head] + rest, sep)
  {
    forall k | 0 <= k < |[head] + rest| - 1
      ensures !Contains(([head] + rest)[k] + sep[..|sep| - 1], sep)
    {
      if k > 0 {
        assert ([head] + rest)[k] == rest[k - 1];
      }
    }
  }

  /** One step of the split: the text before the leftmost occurrence, then the
      split of the remainder */
  lemma SplitStep(s: string, sep: string, i: nat, rest: seq<string>)
    requires |sep| > 0 && OccursAt(s, sep, i)
    requires forall j: nat :: j < i ==> !OccursAt(s, sep, j)
    requires |rest| >= 1 && Join(rest, sep) == s[i + |sep|..]
    requires forall k :: 0 <= k < |rest| ==> !Contains(rest[k], sep)
    ensures Join([s[..i]] + rest, sep) == s
    ensures forall k :: 0 <= k < |[s[..i]] + rest| ==> !Contains(([s[..i]] + rest)[k], sep)
    ensures Contains(s, sep)
  {
    PrefixBeforeFirst(s, sep, i);
    JoinCons(s[..i], rest, sep);
    AroundOccurrence(s, sep, i);
    ConsFree(s[..i], rest, sep);
    assert i <= |s|;
  }

  /** Joining a part in front of at least one more */
  lemma JoinCons(head: string, rest: seq<string>, sep: string)
    requires |rest| >= 1
    ensures Join([head] + rest, sep) == head + sep + Join(rest, sep)
  {
    assert ([head] + rest)[1..] == rest;
  }

  /** A string is the text before an occurrence, the separator, and the text after it */
  lemma AroundOccurrence(s: string, sep: string, i: nat)
    requires OccursAt(s, sep, i)
    ensures s[..i] + sep + s[i + |sep|..] == s
  {
    assert s == s[..i] + s[i..i + |sep|] + s[i + |sep|..];
  }

  /** Putting a separator-free part in front of separator-free parts */
  lemma ConsFree(head: string, rest: seq<string>, sep: string)
    requires !Contains(head, sep)
    requires forall k :: 0 <= k < |rest| ==> !Contains(rest[k], sep)
    ensures forall k :: 0 <= k < |[head] + rest| ==> !Contains(([head] + rest)[k], sep)
  {
    forall k | 0 <= k < |[head] + rest|
      ensures !Contains(([head] + rest)[k], sep)
    {
      if k > 0 {
        assert ([head] + rest)[k] == rest[k - 1];
      }
    }
  }

  /** Python `s.split(sep)` for an explicit separator: an empty separator is
      a ValueError; otherwise the parts re-join to `s`, none of them holds the
      separator, every cut is at the leftmost occurrence, and there are at
      least two parts exactly when `s` holds the separator. */
  function Split(s: string, sep: string): (r: Result<seq<string>>)
    ensures r.Err? <==> |sep| == 0
    ensures r.Err? ==> r.error == ValueError
    ensures r.Ok? ==> |r.value| >= 1 && Join(r.value, sep) == s
    ensures r.Ok? ==> forall k :: 0 <= k < |r.value| ==> !Contains(r.value[k], sep)
    ensures r.Ok? ==> LeftmostCuts(r.value, sep)
    ensures r.Ok? ==> (|r.value| >= 2 <==> Contains(s, sep))
  {
    if |sep| == 0 then Err(ValueError) else Ok(SplitParts(s, sep))
  }

  /** The first part of a split is the whole string when it does not hold
      the separator, and otherwise the text before the separator's leftmost
      occurrence. */
  lemma {:induction false} FirstPart(s: string, sep: string)
    requires |sep| > 0
    ensures var p := SplitParts(s, sep)[0];
      && p <= s
      && !Contains(p, sep)
      && (p == s <==> !Contains(s, sep))
      && (p != s ==> OccursAt(s, sep, |p|) && forall j: nat :: j < |p| ==> !OccursAt(s, sep, j))
  {
    var parts := SplitParts(s, sep);
    match Find(s, sep)
    case None =>
    case Some(i) =>
      assert parts[0] == s[..i];
      assert |parts[0]| < |s|;
  }

  /** A join of two or more parts starts with the first part and the separator */
  lemma {:induction false} JoinHead(parts: seq<string>, sep: string)
    requires |parts| >= 2
    ensures parts[0] + sep <= Join(parts, sep)
    ensures parts[0] + sep + parts[1] <= Join(parts, sep)
    ensures |parts| == 2 ==> Join(parts, sep) == parts[0] + sep + parts[1]
  {
    var tail := Join(parts[1..], sep);
    assert Join(parts, sep) == parts[0] + sep + tail;
    if |parts| == 2 {
      assert tail == parts[1];
    } else {
      assert tail == parts[1] + sep + Join(parts[2..], sep) by {
        assert parts[1..][1..] == parts[2..];
      }
    }
  }

  // ---------------------------------------------------------------------------
  // Case and whitespace

  /** The characters Python's `str.isspace()` accepts */
  predicate IsSpace(c: char) {
    || ('\t' <= c <= '\r')
    || ('\U{1C}' <= c <= '\U{1F}')
    || c == ' ' || c == '\U{85}' || c == '\U{A0}' || c == '\U{1680}'
    || ('\U{2000}' <= c <= '\U{200A}')
    || c == '\U{2028}' || c == '\U{2029}' || c == '\U{202F}' || c == '\U{205F}' || c == '\U{3000}'
  }

  /** An upper-case letter in the ASCII and Latin-1 ranges */
  predicate IsUpper(c: char) {
    ('A' <= c <= 'Z') || ('\U{C0}' <= c <= '\U{DE}' && c != '\U{D7}')
  }

  /** Python `str.lower()` on one ASCII or Latin-1 character */
  function LowerChar(c: char): (d: char)
    ensures !IsUpper(d)
    ensures IsSpace(d) <==> IsSpace(c)
    ensures !IsUpper(c) ==> d == c
    ensures IsUpper(c) ==> d as int == c as int + 32
  {
    if IsUpper(c) then (c as int + 32) as char else c
  }

  /** Python `str.lower()`, character by character */
  function Lower(s: string): (r: string)
    ensures |r| == |s|
    ensures forall i :: 0 <= i < |r| ==> !IsUpper(r[i])
    ensures forall i :: 0 <= i < |s| && !IsUpper(s[i]) ==> r[i] == s[i]
    ensures forall i {:trigger r[i]} :: 0 <= i < |s| && IsUpper(s[i]) ==> r[i] as int == s[i] as int + 32
  {
    seq(|s|, i requires 0 <= i < |s| => LowerChar(s[i]))
  }

  /** Lower-casing twice is lower-casing once */
  lemma LowerIdempotent(s: string)
    ensures Lower(Lower(s)) == Lower(s)
  {
  }

  /** Number of leading whitespace characters */
  function LeadingSpaces(s: string): (k: nat)
    ensures k <= |s|
    ensures forall m :: 0 <= m < k ==> IsSpace(s[m])
    ensures k < |s| ==> !IsSpace(s[k])
  {
    if |s| == 0 || !IsSpace(s[0]) then 0
    else 1 + LeadingSpaces(s[1..])
  }

  /** Number of trailing whitespace characters */
  function TrailingSpaces(s: string): (k: nat)
    ensures k <= |s|
    ensures forall m :: |s| - k <= m < |s| ==> IsSpace(s[m])
    ensures k < |s| ==> !IsSpace(s[|s| - k - 1])
  {
    if |s| == 0 || !IsSpace(s[|s| - 1]) then 0
    else 1 + TrailingSpaces(s[..|s| - 1])
  }

  /** Python `str.strip()`: `s` is the result with whitespace only around it,
      and the result neither starts nor ends with whitespace. */
  function Strip(s: string): (r: string)
    ensures exists i, j ::
      && 0 <= i <= j <= |s| && r == s[i..j]
      && (forall m :: 0 <= m < i ==> IsSpace(s[m]))
      && (forall m :: j <= m < |s| ==> IsSpace(s[m]))
    ensures |r| > 0 ==> !IsSpace(r[0]) && !IsSpace(r[|r| - 1])
  {
    var i, j := StripStart(s), StripEnd(s);
    StripBounds(s, i, j);
    s[i..j]
  }

  /** Where the stripped text starts */
  function StripStart(s: string): nat {
    LeadingSpaces(s)
  }

  /** Where the stripped text ends: before the trailing whitespace, but never
      before its start (an all-whitespace string strips to "") */
  function StripEnd(s: string): nat {
    var i, k := LeadingSpaces(s), TrailingSpaces(s);
    if |s| - k >= i then |s| - k else i
  }

  /** The bounds `Strip` cuts at: whitespace before the first and after the
      second, and non-whitespace at both ends of what is between */
  lemma StripBounds(s: string, i: nat, j: nat)
    requires i == StripStart(s) && j == StripEnd(s)
    ensures i <= j <= |s|
    ensures forall m :: 0 <= m < i ==> IsSpace(s[m])
    ensures forall m :: j <= m < |s| ==> IsSpace(s[m])
    ensures i < j ==> !IsSpace(s[i..j][0]) && !IsSpace(s[i..j][j - i - 1])
  {
    var k := TrailingSpaces(s);
    if i < j {
      assert j == |s| - k && k < |s|;
      assert s[i..j][0] == s[i] && s[i..j][j - i - 1] == s[j - 1];
    }
  }

  /** A string without surrounding whitespace strips to itself */
  lemma StripUnpadded(s: string)
    requires |s| > 0 ==> !IsSpace(s[0]) && !IsSpace(s[|s| - 1])
    ensures Strip(s) == s
  {
    if |s| > 0 {
      assert LeadingSpaces(s) == 0;
      assert TrailingSpaces(s) == 0;
      assert s[0..|s|] == s;
    }
  }

  /** One space on each side of an unpadded string strips away */
  lemma StripPadded(s: string)
    requires |s| > 0 && !IsSpace(s[0]) && !IsSpace(s[|s| - 1])
    ensures Strip(" " + s + " ") == s
  {
    var p := " " + s + " ";
    assert p[1..] == s + " ";
    assert LeadingSpaces(p) == 1;
    assert p[..|p| - 1] == " " + s;
    assert TrailingSpaces(p) == 1;
    assert p[1..|p| - 1] == s;
  }

  /** A string without upper-case letters lower-cases to itself */
  lemma LowerOfLower(s: string)
    requires forall i :: 0 <= i < |s| ==> !IsUpper(s[i])
    ensures Lower(s) == s
  {
  }

  /** Stripping twice is stripping once */
  lemma StripIdempotent(s: string)
    ensures Strip(Strip(s)) == Strip(s)
  {
    StripUnpadded(Strip(s));
  }
}

=== FILE: spotify_match.dfy ===
/** Candidate selection of `fetch_spotify_metadata` in music_downloader.py:
    each catalogue candidate's first artist is scored against the requested
    artist, one candidate is chosen, and album, cover and year are read from
    it; without a response the metadata keeps its defaults.

    `FetchMetadata` is the code as written, which chooses the candidate with
    the LOWEST similarity and raises on an empty item list, on a candidate
    without cover images and on two empty artist names.
    `FetchMetadataIntended` is the best-match selection the percentage's
    docstring at music_downloader.py:57 names ("the best match"), with those
    failures turned into defaults.
 */
module SpotifyMatch {
  import opened Wrappers
  import opened PyStr
  import opened Levenshtein
  import opened Catalog

  /** The `year` entry: the integer default or the text taken from a release date */
  datatype Year = YearNumber(n: int) | YearText(text: string)

  /** The metadata dictionary the function returns */
  datatype SongMetadata = SongMetadata(
    artist: string,
    title: string,
    album: string,
    year: Year,
    coverUrl: Option<string>)

  /** The metadata before any catalogue data is applied: the request's own
      title and artist, an unknown album of the year 1900, and no cover */
  function Defaults(title: string, artist: string): (m: SongMetadata)
    ensures m.title == title && m.artist == artist
    ensures m.album == "Unknown" && m.year == YearNumber(1900) && m.coverUrl.None?
  {
    SongMetadata(artist, title, "Unknown", YearNumber(1900), None)
  }

  /** The requested artist as it is compared: stripped, then lower-cased. The
      result has no upper-case letter and no whitespace at either end, and
      each of its characters is the stripped request's, lower-cased. */
  function Target(artist: string): (r: string)
    ensures |r| == |Strip(artist)| <= |artist|
    ensures forall i {:trigger r[i]} :: 0 <= i < |r| && !IsUpper(Strip(artist)[i]) ==> r[i] == Strip(artist)[i]
    ensures forall i {:trigger r[i]} :: 0 <= i < |r| && IsUpper(Strip(artist)[i]) ==> r[i] as int == Strip(artist)[i] as int + 32
    ensures forall i :: 0 <= i < |r| ==> !IsUpper(r[i])
    ensures |r| > 0 ==> !IsSpace(r[0]) && !IsSpace(r[|r| - 1])
  {
    var stripped := Strip(artist);
    assert |stripped| > 0 ==> LowerChar(stripped[0]) == Lower(stripped)[0];
    Lower(stripped)
  }

  /** A candidate's score: its first artist's name, only lower-cased, against
      the normalised requested artist. A candidate without artists raises
      IndexError, and an empty name against an empty request divides by zero;
      otherwise the score is a percentage, 100 exactly on a match. */
  function ArtistScore(item: CatalogTrack, artist: string): (r: Result<real>)
    ensures r.Err? <==> |item.artists| == 0 || (item.artists[0] == "" && Target(artist) == "")
    ensures r.Err? ==> r.error == (if |item.artists| == 0 then IndexError else ZeroDivisionError)
    ensures r.Ok? ==> 0.0 <= r.value <= 100.0
    ensures r.Ok? ==> (r.value == 100.0 <==> Lower(item.artists[0]) == Target(artist))
    ensures r.Ok? ==> r == Similarity(Lower(item.artists[0]), Target(artist))
  {
    var candidate :- At(item.artists, 0);
    Similarity(Lower(candidate), Target(artist))
  }

  /** Surrounding whitespace in the requested artist does not change a score */
  lemma TargetPaddingIgnored(item: CatalogTrack, artist: string)
    ensures ArtistScore(item, artist) == ArtistScore(item, Strip(artist))
  {
    StripIdempotent(artist);
  }

  /** Whitespace in a candidate's artist name is not stripped: a padded
      candidate no longer matches perfectly. */
  lemma PaddedCandidateLoses()
    ensures ArtistScore(CatalogTrack("t", [" ab"], Album("x", [], "", "")), "ab").Ok?
    ensures ArtistScore(CatalogTrack("t", [" ab"], Album("x", [], "", "")), "ab").value < 100.0
  {
    StripUnpadded("ab");
    LowerOfLower("ab");
    LowerOfLower(" ab");
    assert " ab"[0] != "ab"[0];
  }

  /** Whitespace around the requested artist is stripped: a padded request
      still matches perfectly. */
  lemma PaddedRequestMatches()
    ensures ArtistScore(CatalogTrack("t", ["ab"], Album("x", [], "", "")), " ab ") == Ok(100.0)
  {
    StripPadded("ab");
    LowerOfLower("ab");
  }

  /** The scores of all candidates, in order; the first failing candidate's
      exception ends the scoring. */
  function Scores(items: seq<CatalogTrack>, artist: string): (r: Result<seq<real>>)
    ensures r.Ok? <==> forall k :: 0 <= k < |items| ==> ArtistScore(items[k], artist).Ok?
    ensures r.Ok? ==> |r.value| == |items|
    ensures r.Ok? ==> forall k :: 0 <= k < |items| ==> r.value[k] == ArtistScore(items[k], artist).value
    ensures r.Err? ==> exists k ::
      && 0 <= k < |items| && ArtistScore(items[k], artist) == Err(r.error)
      && forall j :: 0 <= j < k ==> ArtistScore(items[j], artist).Ok?
  {
    MapAll(item => ArtistScore(item, artist), items)
  }

  // ---------------------------------------------------------------------------
  // Choosing an index

  /** `min(range(len(xs)), key=lambda x: xs[x])`: an empty range raises;
      otherwise the first position holding the smallest value. */
  function FirstMinIndex(xs: seq<real>): (r: Result<nat>)
    ensures r.Err? <==> |xs| == 0
    ensures r.Err? ==> r.error == ValueError
    ensures r.Ok? ==> r.value < |xs|
    ensures r.Ok? ==> forall j :: 0 <= j < |xs| ==> xs[r.value] <= xs[j]
    ensures r.Ok? ==> forall j :: 0 <= j < r.value ==> xs[j] > xs[r.value]
  {
    if |xs| == 0 then Err(ValueError)
    else if |xs| == 1 then Ok(0)
    else
      var k := FirstMinIndex(xs[..|xs| - 1]).value;
      if xs[|xs| - 1] < xs[k] then Ok(|xs| - 1) else Ok(k)
  }

  /** The first position holding the largest value; an empty sequence has none */
  function FirstMaxIndex(xs: seq<real>): (r: Option<nat>)
    ensures r.None? <==> |xs| == 0
    ensures r.Some? ==> r.value < |xs|
    ensures r.Some? ==> forall j :: 0 <= j < |xs| ==> xs[j] <= xs[r.value]
    ensures r.Some? ==> forall j :: 0 <= j < r.value ==> xs[j] < xs[r.value]
  {
    if |xs| == 0 then None
    else if |xs| == 1 then Some(0)
    else
      var k := FirstMaxIndex(xs[..|xs| - 1]).value;
      if xs[|xs| - 1] > xs[k] then Some(|xs| - 1) else Some(k)
  }

  /** Candidate `k` is the first among those least similar to the artist */
  ghost predicate IsLeastSimilar(items: seq<CatalogTrack>, artist: string, k: nat) {
    && k < |items|
    && (forall j :: 0 <= j < |items| ==> ArtistScore(items[j], artist).Ok?)
    && (forall j :: 0 <= j < |items| ==>
          ArtistScore(items[k], artist).value <= ArtistScore(items[j], artist).value)
    && (forall j :: 0 <= j < k ==>
          ArtistScore(items[j], artist).value > ArtistScore(items[k], artist).value)
  }

  /** The index `fetch_spotify_metadata` selects: the first candidate of
      lowest similarity. No candidates, or a candidate that cannot be scored,
      raise. */
  function SelectAsWritten(items: seq<CatalogTrack>, artist: string): (r: Result<nat>)
    ensures r.Ok? ==> IsLeastSimilar(items, artist, r.value)
    ensures r.Err? <==> |items| == 0 || exists j :: 0 <= j < |items| && ArtistScore(items[j], artist).Err?
  {
    var scores :- Scores(items, artist);
    FirstMinIndex(scores)
  }

  // ---------------------------------------------------------------------------
  // Year and metadata

  /** The year taken from an album: the whole release date when its precision
      is "year", else the text before the first '-'. */
  function ReleaseYear(album: Album): (y: Year)
    ensures y.YearText? && y.text <= album.releaseDate
    ensures album.releaseDatePrecision == "year" ==> y.text == album.releaseDate
    ensures album.releaseDatePrecision != "year" ==>
      && !Contains(y.text, "-")
      && (y.text == album.releaseDate || album.releaseDate[|y.text|] == '-')
  {
    if album.releaseDatePrecision != "year" then
      FirstPart(album.releaseDate, "-");
      YearText(SplitParts(album.releaseDate, "-")[0])
    else YearText(album.releaseDate)
  }

  /** A finer-than-year release date yields the text before its first '-' */
  lemma ReleaseYearOfDate(year: string, rest: string, name: string, images: seq<string>, precision: string)
    requires precision != "year" && !Contains(year, "-")
    ensures ReleaseYear(Album(name, images, year + "-" + rest, precision)) == YearText(year)
  {
    var d := year + "-" + rest;
    var y := ReleaseYear(Album(name, images, d, precision)).text;
    var n := |year|;
    NoContainsNoChar(year, '-');
    assert y == d[..|y|];
    assert d[n] == '-';
    assert |y| > n ==> y[n..n + 1] == [y[n]] && y[n] == '-';
    assert |y| > n ==> OccursAt(y, "-", n);
    assert |y| == n;
    assert d[..n] == year;
  }

  /** The example of a day-precision date: "1999-04-12" yields "1999" */
  lemma ReleaseYearOfDay()
    ensures ReleaseYear(Album("a", [], "1999-04-12", "day")) == YearText("1999")
  {
    NoCharNoContains("1999", '-');
    ReleaseYearOfDate("1999", "04-12", "a", [], "day");
    assert "1999" + "-" + "04-12" == "1999-04-12";
  }

  /** The metadata `fetch_spotify_metadata` returns, as written: defaults for a
      falsy response; otherwise album, first cover and year of the selected
      candidate, with the requested title and artist kept. */
  function FetchMetadata(title: string, artist: string, results: SearchResults): (r: Result<SongMetadata>)
    ensures results.None? ==> r == Ok(Defaults(title, artist))
    ensures r.Ok? ==> r.value.title == title && r.value.artist == artist
    ensures results.Some? && r.Ok? ==>
      exists k: nat :: IsLeastSimilar(results.value, artist, k)
        && |results.value[k].album.images| > 0
        && r.value.album == results.value[k].album.name
        && r.value.coverUrl == Some(results.value[k].album.images[0])
        && r.value.year == ReleaseYear(results.value[k].album)
    ensures results.Some? && r.Err? ==>
      || |results.value| == 0
      || (exists j :: 0 <= j < |results.value| && ArtistScore(results.value[j], artist).Err?)
      || (exists k: nat :: IsLeastSimilar(results.value, artist, k) && |results.value[k].album.images| == 0)
  {
    match results
    case None => Ok(Defaults(title, artist))
    case Some(items) =>
      var k :- SelectAsWritten(items, artist);
      var selected := items[k];
      var cover :- At(selected.album.images, 0);
      Ok(SongMetadata(artist, title, selected.album.name, ReleaseYear(selected.album), Some(cover)))
  }

  /** The two candidates of the examples below: an exact artist match ranked
      first, an unrelated artist ranked second */
  function ExactThenOther(): seq<CatalogTrack> {
    [CatalogTrack("t", ["AB"], Album("right", ["c1"], "2001", "year")),
     CatalogTrack("t", ["cd"], Album("wrong", ["c2"], "2002", "year"))]
  }

  /** A candidate whose artist equals the normalised request scores 100 */
  lemma ScoreOfExactMatch(item: CatalogTrack, artist: string)
    requires |item.artists| > 0 && Lower(item.artists[0]) == Target(artist) != ""
    ensures ArtistScore(item, artist) == Ok(100.0)
  {
  }

  /** Any other candidate with an artist scores, and below 100 */
  lemma ScoreOfMismatch(item: CatalogTrack, artist: string)
    requires |item.artists| > 0 && Lower(item.artists[0]) != Target(artist)
    ensures ArtistScore(item, artist).Ok? && ArtistScore(item, artist).value < 100.0
  {
  }

  lemma TargetOfAB()
    ensures Target("ab") == "ab"
  {
    StripUnpadded("ab");
    LowerOfLower("ab");
  }

  lemma LowerOfExamples()
    ensures Lower("AB") == "ab" && Lower("cd") == "cd"
  {
    LowerOfLower("cd");
  }

  lemma ExampleScores()
    ensures ArtistScore(ExactThenOther()[0], "ab") == Ok(100.0)
    ensures ArtistScore(ExactThenOther()[1], "ab").Ok?
    ensures ArtistScore(ExactThenOther()[1], "ab").value < 100.0
  {
    var items := ExactThenOther();
    TargetOfAB();
    LowerOfExamples();
    ScoreOfExactMatch(items[0], "ab");
    ScoreOfMismatch(items[1], "ab");
  }

  /** As written, an exact match ranked first loses to any mismatching
      second candidate */
  lemma PicksWorstMatch(title: string, artist: string, exact: CatalogTrack, other: CatalogTrack)
    requires |exact.artists| > 0 && Lower(exact.artists[0]) == Target(artist) != ""
    requires |other.artists| > 0 && Lower(other.artists[0]) != Target(artist)
    requires |other.album.images| > 0
    ensures FetchMetadata(title, artist, Some([exact, other])).Ok?
    ensures FetchMetadata(title, artist, Some([exact, other])).value.album == other.album.name
  {
    ScoreOfExactMatch(exact, artist);
    ScoreOfMismatch(other, artist);
    var items := [exact, other];
    var k := SelectAsWritten(items, artist).value;
    assert IsLeastSimilar(items, artist, k);
    assert k == 1;
  }

  /** As written, the unrelated "cd" of the example is chosen over "AB" */
  lemma PicksWorstMatchExample()
    ensures FetchMetadata("t", "ab", Some(ExactThenOther())).Ok?
    ensures FetchMetadata("t", "ab", Some(ExactThenOther())).value.album == "wrong"
  {
    var items := ExactThenOther();
    TargetOfAB();
    LowerOfExamples();
    assert items == [items[0], items[1]];
    PicksWorstMatch("t", "ab", items[0], items[1]);
  }

  /** As written, a response with no items raises instead of keeping the defaults */
  lemma EmptyItemsRaise(title: string, artist: string)
    ensures FetchMetadata(title, artist, Some([])) == Err(ValueError)
  {
  }

  /** As written, a selected candidate without cover images raises */
  lemma NoImagesRaise()
    ensures FetchMetadata("t", "ab", Some([CatalogTrack("t", ["ab"], Album("a", [], "2001", "year"))]))
      == Err(IndexError)
  {
    StripUnpadded("ab");
    LowerOfLower("ab");
  }

  /** As written, an empty candidate artist against a blank request divides by zero */
  lemma EmptyArtistsRaise()
    ensures FetchMetadata("t", " ", Some([CatalogTrack("t", [""], Album("a", ["c"], "2001", "year"))]))
      == Err(ZeroDivisionError)
  {
    assert Strip(" ") == "" by {
      assert LeadingSpaces(" ") == 1;
    }
  }

  // ---------------------------------------------------------------------------
  // The intended selection

  /** The score with two empty names counting as a perfect match */
  function SimilarityIntended(a: string, b: string): (r: real)
    ensures 0.0 <= r <= 100.0
    ensures r == 100.0 <==> a == b
    ensures a != "" || b != "" ==> Similarity(a, b) == Ok(r)
  {
    match Similarity(a, b)
    case Ok(v) => v
    case Err(_) => 100.0
  }

  /** A candidate's intended score; a candidate without artists still raises */
  function ArtistScoreIntended(item: CatalogTrack, artist: string): Result<real> {
    var candidate :- At(item.artists, 0);
    Ok(SimilarityIntended(Lower(candidate), Target(artist)))
  }

  function ScoresIntended(items: seq<CatalogTrack>, artist: string): (r: Result<seq<real>>)
    ensures r.Ok? <==> forall k :: 0 <= k < |items| ==> |items[k].artists| > 0
    ensures r.Ok? ==> |r.value| == |items|
    ensures r.Ok? ==> forall k :: 0 <= k < |items| ==> r.value[k] == ArtistScoreIntended(items[k], artist).value
  {
    MapAll(item => ArtistScoreIntended(item, artist), items)
  }

  /** Candidate `k` is the first among those most similar to the artist */
  ghost predicate IsMostSimilar(items: seq<CatalogTrack>, artist: string, k: nat) {
    && k < |items|
    && (forall j :: 0 <= j < |items| ==> |items[j].artists| > 0)
    && (forall j :: 0 <= j < |items| ==>
          ArtistScoreIntended(items[j], artist).value <= ArtistScoreIntended(items[k], artist).value)
    && (forall j :: 0 <= j < k ==>
          ArtistScoreIntended(items[j], artist).value < ArtistScoreIntended(items[k], artist).value)
  }

  /** The best match, ties broken by catalogue rank; `None` without candidates */
  function SelectBest(items: seq<CatalogTrack>, artist: string): (r: Result<Option<nat>>)
    ensures r.Err? <==> exists j :: 0 <= j < |items| && |items[j].artists| == 0
    ensures r.Ok? ==> (r.value.None? <==> |items| == 0)
    ensures r.Ok? && r.value.Some? ==> IsMostSimilar(items, artist, r.value.value)
  {
    var scores :- ScoresIntended(items, artist);
    Ok(FirstMaxIndex(scores))
  }

  /** The cover URL, if the album has images */
  function FirstCover(album: Album): (c: Option<string>)
    ensures c.Some? <==> |album.images| > 0
    ensures c.Some? ==> c.value == album.images[0]
  {
    if |album.images| > 0 then Some(album.images[0]) else None
  }

  /** `fetch_spotify_metadata` as intended: defaults when the
      response is falsy or empty; otherwise album, cover and year of the most
      similar candidate, with no cover when it has no images. */
  function FetchMetadataIntended(title: string, artist: string, results: SearchResults): (r: Result<SongMetadata>)
    ensures results.None? || |results.value| == 0 ==> r == Ok(Defaults(title, artist))
    ensures r.Ok? ==> r.value.title == title && r.value.artist == artist
    ensures r.Err? <==> results.Some? && exists j :: 0 <= j < |results.value| && |results.value[j].artists| == 0
    ensures results.Some? && |results.value| > 0 && r.Ok? ==>
      exists k: nat :: IsMostSimilar(results.value, artist, k)
        && r.value.album == results.value[k].album.name
        && r.value.coverUrl == FirstCover(results.value[k].album)
        && r.value.year == ReleaseYear(results.value[k].album)
  {
    match results
    case None => Ok(Defaults(title, artist))
    case Some(items) =>
      var choice :- SelectBest(items, artist);
      match choice
      case None => Ok(Defaults(title, artist))
      case Some(k) =>
        var selected := items[k];
        Ok(SongMetadata(artist, title, selected.album.name, ReleaseYear(selected.album), FirstCover(selected.album)))
  }

  /** A candidate whose artist matches the request exactly (after lower-casing
      and stripping) is chosen over any other, whatever its rank. */
  lemma {:induction false} IntendedPrefersExactMatch(items: seq<CatalogTrack>, artist: string, e: nat)
    requires e < |items| && forall j :: 0 <= j < |items| ==> |items[j].artists| > 0
    requires Lower(items[e].artists[0]) == Target(artist)
    ensures SelectBest(items, artist).Ok? && SelectBest(items, artist).value.Some?
    ensures var k := SelectBest(items, artist).value.value;
      Lower(items[k].artists[0]) == Target(artist) && k <= e
  {
    var k := SelectBest(items, artist).value.value;
    assert ArtistScoreIntended(items[e], artist).value == 100.0;
    assert ArtistScoreIntended(items[k], artist).value == 100.0;
  }

  /** With the intended selection, an exact match ranked first wins over any
      second candidate */
  lemma IntendedPicksBestMatch(title: string, artist: string, exact: CatalogTrack, other: CatalogTrack)
    requires |exact.artists| > 0 && |other.artists| > 0
    requires Lower(exact.artists[0]) == Target(artist)
    ensures FetchMetadataIntended(title, artist, Some([exact, other])).Ok?
    ensures FetchMetadataIntended(title, artist, Some([exact, other])).value.album == exact.album.name
  {
    IntendedPrefersExactMatch([exact, other], artist, 0);
    IntendedSelects(title, artist, [exact, other], 0);
  }

  /** The example of `PicksWorstMatch`, with the intended selection */
  lemma IntendedPicksBestMatchExample()
    ensures FetchMetadataIntended("t", "ab", Some(ExactThenOther())).Ok?
    ensures FetchMetadataIntended("t", "ab", Some(ExactThenOther())).value.album == "right"
  {
    var items := ExactThenOther();
    TargetOfAB();
    LowerOfExamples();
    assert items == [items[0], items[1]];
    IntendedPicksBestMatch("t", "ab", items[0], items[1]);
  }

  /** The intended metadata is read from the candidate `SelectBest` chooses */
  lemma IntendedSelects(title: string, artist: string, items: seq<CatalogTrack>, k: nat)
    requires SelectBest(items, artist) == Ok(Some(k))
    ensures k < |items|
    ensures FetchMetadataIntended(title, artist, Some(items))
      == Ok(SongMetadata(artist, title, items[k].album.name, ReleaseYear(items[k].album), FirstCover(items[k].album)))
  {
  }

  /** With the intended selection, an empty response keeps the defaults, an
      imageless candidate leaves the cover unset and two empty artist names
      count as a match, where the code as written raises in all three */
  lemma IntendedHandlesEmptyCases(title: string, artist: string)
    ensures FetchMetadataIntended(title, artist, Some([])) == Ok(Defaults(title, artist))
    ensures FetchMetadataIntended("t", "ab", Some([CatalogTrack("t", ["ab"], Album("a", [], "2001", "year"))]))
      == Ok(SongMetadata("ab", "t", "a", YearText("2001"), None))
    ensures FetchMetadataIntended("t", " ", Some([CatalogTrack("t", [""], Album("a", ["c"], "2001", "year"))]))
      == Ok(SongMetadata(" ", "t", "a", YearText("2001"), Some("c")))
  {
  }
}

=== FILE: wrappers.dfy ===
/** Failure-compatible wrappers shared by the whole model.

    The modelled Python code signals failure by raising; every raise that the
    model keeps becomes an `Err` carrying the kind of exception, so that the
    error paths are part of each operation's result instead of a precondition.
 */
module Wrappers {

  /** Python's `None`-or-value */
  datatype Option<+T> = None | Some(value: T)

  /** The Python exception kinds the modelled code can raise */
  datatype PyError =
    | KeyError           // missing key in a dict
    | IndexError         // list/str index out of range
    | TypeError          // wrong operand type (subscripting a non-container, `None > 0`, ...)
    | AttributeError     // `.split` on something that is not a string
    | ValueError         // `min()` of an empty range, `str.split("")`
    | ZeroDivisionError  // division by a zero length
    | FileNotFoundError  // `os.remove` of a missing path
    | TagError           // any failure while loading or saving the tag block
    | SearchError        // any exception the catalogue client raises (network, authentication)

  /** Either a value or the exception that was raised instead */
  datatype Result<+T> = Ok(value: T) | Err(error: PyError) {

    predicate IsFailure() {
      Err?
    }

    function PropagateFailure<U>(): Result<U>
      requires Err?
    {
      Err(error)
    }

    function Extract(): T
      requires Ok?
    {
      value
    }
  }

  /** A list comprehension `[f(x) for x in xs]` whose `f` may raise: the
      results in order, or the exception of the first element that raises */
  function MapAll<A, B>(f: A -> Result<B>, xs: seq<A>): (r: Result<seq<B>>)
    ensures r.Ok? <==> forall i :: 0 <= i < |xs| ==> f(xs[i]).Ok?
    ensures r.Ok? ==> |r.value| == |xs|
    ensures r.Ok? ==> forall i :: 0 <= i < |xs| ==> r.value[i] == f(xs[i]).value
    ensures r.Err? ==> exists i ::
      && 0 <= i < |xs| && f(xs[i]) == Err(r.error)
      && forall j :: 0 <= j < i ==> f(xs[j]).Ok?
    decreases |xs|
  {
    if |xs| == 0 then Ok([])
    else
      var head := f(xs[0]);
      if head.Err? then
        assert f(xs[0]) == Err(head.error);
        Err(head.error)
      else
        var rest := MapAll(f, xs[1..]);
        assert forall i :: 1 <= i < |xs| ==> xs[i] == xs[1..][i - 1];
        if rest.Err? then
          FailureAfterHead(f, xs, rest.error);
          Err(rest.error)
        else
          Ok([head.value] + rest.value)
  }

  /** The first failure in the tail, after a successful head, is the first
      failure of the whole sequence */
  lemma FailureAfterHead<A, B>(f: A -> Result<B>, xs: seq<A>, e: PyError)
    requires |xs| > 0 && f(xs[0]).Ok?
    requires exists i ::
      && 0 <= i < |xs[1..]| && f(xs[1..][i]) == Err(e)
      && forall j :: 0 <= j < i ==> f(xs[1..][j]).Ok?
    ensures exists i ::
      && 0 <= i < |xs| && f(xs[i]) == Err(e)
      && forall j :: 0 <= j < i ==> f(xs[j]).Ok?
  {
    var i :|
      && 0 <= i < |xs[1..]| && f(xs[1..][i]) == Err(e)
      && forall j :: 0 <= j < i ==> f(xs[1..][j]).Ok?;
    assert f(xs[i + 1]) == Err(e);
    forall j | 0 <= j < i + 1
      ensures f(xs[j]).Ok?
    {
      if j > 0 {
        assert xs[j] == xs[1..][j - 1];
      }
    }
  }
}
